=== FILE: README.md ===
# alloc_check: a Dafny model of the allocation ledger

`alloc_check` is a small C library. It wraps `malloc`, `realloc` and `free`,
and when the program calls `report_alloc_checks()` it reports which blocks
were never freed (nothing registers the report to run at exit). Each
intercepted call does three things:

- It forwards the call to the real allocator.
- It logs a `memory_entry` (id, kind, address, size, file, line) in a
  process-wide ledger, `checker_status`.
- It files that entry under a small integer *block id*. A malloc that
  succeeds mints the next id (`id_counter++`) and a failed one uses 0; a
  realloc or free finds the id by scanning the id-to-address table
  (`find_id`).

The report's leak pass, `find_lost_blocks`, walks every block's history. Every
block with no FREE entry counts as lost. The pass adds up the sizes of the
lost blocks' last entries. Two text helpers print sizes (`format_size`) and
call sites (`format_file_line`).

The model follows `src/alloc_check.c`, one Dafny module per concern:

| file | module | what it holds |
|---|---|---|
| common.dfy | Common | `Option`, the C widths (`size_t` as `Size`, `int` as `Int32`), powers |
| decimal.dfy | Decimal | `%ld`/`%d` numerals, their inverse, `snprintf` truncation |
| entries.dfy | Entries | `ENTRY_TYPE`, `memory_entry`, `entry_type_str` |
| grow_array.dfy | GrowArrays | `voidptr_array`: create, ensure, append |
| format.dfy | Format | `format_size`, `format_file_line` |
| alloc_check.dfy | AllocCheck | `checker_status`, `init_checker`, `find_id`, the three `checked_*` entry points, call sequences |
| lost_blocks.dfy | LostBlocks | `find_lost_blocks` and how each call changes its verdict |
| scenarios.dfy | Scenarios | whole call sequences and the leak pass's verdict on them |

The ledger is an immutable `CheckerStatus`. Each `voidptr_array` in it is
represented by the sequence of elements it holds. The capacity arithmetic of
`voidptr_array` is modelled on its own in GrowArrays.

The real allocator is an oracle. Its answer (an address, with 0 for NULL) is
an input of each step. `Valid` is the invariant that every reachable ledger
keeps:

- ids are dense;
- `pointers` and `entry_lookup` have one slot per minted id;
- every history holds only entries filed under its own id;
- every real block's history (id >= 1) opens with the successful MALLOC that
  minted it and holds no other MALLOC; bucket 0 collects failed mallocs and the
  calls whose address resolved to no block;
- each per-kind list holds only its own kind;
- the per-kind lists and the histories hold the same entries (multiset
  balance).

## Model

| member | source | states |
|---|---|---|
| Decimal.Truncate | src/alloc_check.c:62-66 | `snprintf(buf, n, ...)` keeps the longest prefix of at most n-1 characters: text that fits is kept whole, longer text is cut to exactly n-1 characters |
| Decimal.DecRoundTrip | src/alloc_check.c:62-66 | a `%ld` numeral reads back as the number that was printed |
| Entries.EntryTypeStr | src/alloc_check.c:239-245 | the label is non-empty exactly for the codes 1, 2 and 3 |
| Entries.EntryTypeStrNamesKind | src/alloc_check.c:146-152 | each real entry kind's enum code prints as a label that reads back as that kind; `ENTRY_NVAL` prints as nothing |
| GrowArrays.Create | src/alloc_check.c:95-106 | a new array is empty and has the default capacity of 4 |
| GrowArrays.Grow | src/alloc_check.c:118-119 | the doubling loop stops at the first doubling of the start capacity that reaches the request, so it is less than twice the request unless no doubling happened |
| GrowArrays.EnsureCapacity | src/alloc_check.c:114-125 | the elements never change; the result holds at least the requested slots; an array that already had them is untouched; otherwise the capacity is a doubling of max(capacity, 4) that is tight |
| GrowArrays.Append | src/alloc_check.c:138-142 | as written: the element goes at the end, and the capacity doubles on every append, full or not |
| GrowArrays.AppendAll | src/alloc_check.c:138-142 | repeated appends keep the elements in call order and keep the array valid |
| GrowArrays.AppendCapacityExplodes | src/alloc_check.c:138-142 | as written: after n appends the capacity is 2^n times what it was |
| GrowArrays.AppendThreeReservesThirtyTwo | src/alloc_check.c:138-142 | as written: three appends to a fresh array reserve 32 slots |
| GrowArrays.AppendIntended | src/alloc_check.c:138-142 | corrected: the capacity is unchanged while there is room and doubles only when the array is full |
| GrowArrays.AppendAllIntended | src/alloc_check.c:138-142 | corrected: repeated appends keep the elements in call order and keep the array valid |
| GrowArrays.AppendIntendedCapacityTight | src/alloc_check.c:138-142 | corrected: after n appends to a fresh array the capacity is the default 4 or less than 2n |
| GrowArrays.AppendIntendedThreeKeepsFour | src/alloc_check.c:138-142 | corrected: three appends to a fresh array keep its four slots |
| Format.FormatSize | src/alloc_check.c:30-68 | the field is the unit-scaled text when that has at most 6 characters, and otherwise its first 6 characters |
| Format.ScaleIsShift | src/alloc_check.c:35-59 | each unit's divisor is 2 to the power of the shift the code applies (10, 20, 30, 40, 50) |
| Format.ShownValueBands | src/alloc_check.c:35-64 | sizes up to 0x10000 are shown exactly in bytes; the kB band shows 64..8192, the MB/GB/TB bands 8..8192 and the PB band 8..16383 |
| Format.ShownRoundsDown | src/alloc_check.c:35-59 | the shown number is the size in the chosen unit rounded down |
| Format.FormatSizeFits | src/alloc_check.c:62-66 | up to 0x20000000000000 bytes the text has at most 6 characters, so the buffer never cuts it |
| Format.LargestSizeLosesUnit | src/alloc_check.c:35-39 | the largest `size_t` prints as "16383P": five digits leave room for only one letter of the unit |
| Format.FormatSizeReadsBack | src/alloc_check.c:30-68 | round trip: up to 0x20000000000000 bytes the field parses back as the chosen unit and the size in that unit rounded down, and exactly the size in the byte band |
| Format.ShownFileName | src/alloc_check.c:74-77 | a name of up to 20 characters is kept whole; a longer one becomes its first 17 characters followed by "...", 20 characters in all |
| Format.FormatFileLine | src/alloc_check.c:69-80 | as written: the field is "name:line" (name possibly elided) when that has at most 24 characters, and otherwise its first 24 characters |
| Format.FileLineCutsLine | src/alloc_check.c:75-77 | as written: with a name longer than 20 characters and a four-digit line, the field shows line/10 and not the line |
| Format.FileLineCutExample | src/alloc_check.c:69-80 | as written, line 1234 of a 21-character file name prints as "abcdefghijklmnopq...:123"; with the limit the buffer was sized for it prints as "...:1234" |
| Format.FormatFileLineIntended | src/alloc_check.c:69-80 | corrected: the field is "name:line" (name possibly elided) when that has at most 25 characters, and otherwise its first 25 characters |
| Format.FileLineIntendedShowsLine | src/alloc_check.c:69-80 | corrected: every line number below 10000 is printed whole after the shown name and a colon, and reads back as the line |
| AllocCheck.InitialStatus | src/alloc_check.c:186-200 | the first ledger is valid: the next id is 1, there is one NULL slot, and bucket 0's history is empty |
| AllocCheck.InitChecker | src/alloc_check.c:186-200 | a missing ledger is created in the initial state; an existing one is returned untouched |
| AllocCheck.FindFrom | src/alloc_check.c:204-208 | the scan from slot i returns the first slot at or after i that holds the address, or 0 when there is none |
| AllocCheck.FindId | src/alloc_check.c:202-211 | the result is the lowest slot holding the address, or 0 when no slot holds it (NULL and unlisted addresses both land in bucket 0) |
| AllocCheck.FindIdIsFirst | src/alloc_check.c:202-211 | conversely, a slot that holds the address with no earlier slot holding it is the one returned |
| AllocCheck.FindIdNullIsBucketZero | src/alloc_check.c:196-210 | NULL always resolves to bucket 0 in a valid ledger |
| AllocCheck.FindIdAppend | src/alloc_check.c:202-211 | adding a slot does not change what earlier addresses resolve to; the new slot is found only for an address no earlier slot holds |
| AllocCheck.RecordMalloc | src/alloc_check.c:251-276 | the ledger stays valid; the entry joins the MALLOC list and exactly one history; a NULL result goes to bucket 0 and mints nothing; any other result mints the next id and adds one address slot and one new history |
| AllocCheck.RecordFailedMalloc | src/alloc_check.c:260-264 | a NULL malloc files its entry under bucket 0 and leaves the ids and addresses alone |
| AllocCheck.RecordMintingMalloc | src/alloc_check.c:265-271 | a satisfied malloc mints the next id, with its address and a history opened by this entry |
| AllocCheck.MallocAtReusedAddressIsShadowed | src/alloc_check.c:265-271 | right after a malloc at an address an older slot still holds, `find_id` resolves that address to the older id and not to the one just minted; only a fresh address resolves to the new id |
| AllocCheck.RecordRealloc | src/alloc_check.c:278-294 | the ledger stays valid; the entry, with the new address, joins the REALLOC list and the history of the id the old address resolves to; that slot alone takes the new address, NULL included; bucket 0's slot and the id counter never change |
| AllocCheck.MoveSlot | src/alloc_check.c:288-290 | only the resolved slot changes, and slot 0 is never written |
| AllocCheck.ReallocMovesBlock | src/alloc_check.c:288-290 | after a realloc to an address no slot held, the block is found at its new address and no longer at its old one |
| AllocCheck.FailedReallocForgetsAddress | src/alloc_check.c:282-290 | a failed realloc (NULL returned) overwrites the slot of the block, so when no other slot holds the old address it then resolves to bucket 0 |
| AllocCheck.RecordFree | src/alloc_check.c:296-306 | the ledger stays valid; a size-0 FREE entry joins the FREE list and the history of the resolved id; the address table and the id counter are unchanged |
| AllocCheck.Step | src/alloc_check.c:251-306 | every entry point keeps the ledger valid |
| AllocCheck.Intercept | src/alloc_check.c:251-253 | after any call the ledger exists and is valid |
| AllocCheck.Run | src/alloc_check.c:182-200 | a sequence of calls keeps the global ledger valid, and any non-empty sequence leaves it initialised |
| AllocCheck.StepAddsOneEntry | src/alloc_check.c:272-305 | each call adds exactly one entry to its own kind's list, none to the others, and one entry in all to the histories; only a satisfied malloc mints an id |
| AllocCheck.EntryCountsBalance | src/alloc_check.c:165-178 | the per-kind list lengths add up to the total history length |
| AllocCheck.RunCounts | src/alloc_check.c:405-412 | over any run, each list grows by the number of calls of its kind, the histories by the number of calls, and the id counter by the number of satisfied mallocs |
| AllocCheck.ReportedCountsMatchCalls | src/alloc_check.c:405-412 | from a fresh process, the reported MALLOC/REALLOC/FREE counts equal the numbers of calls made, failed ones included; the next id is 1 plus the number of satisfied mallocs; `pointers` and `entry_lookup` both have one slot per id |
| LostBlocks.ScanBlock | src/alloc_check.c:328-338 | the inner scan reports whether the history holds a FREE entry, and otherwise the size of its last entry |
| LostBlocks.FindLostBlocks | src/alloc_check.c:312-376 | the ids returned are exactly the blocks with id at least 1 and no FREE entry, in strictly ascending order; the count is their number; the total is the sum of their last sizes modulo 2^64 |
| LostBlocks.LostIdsBelowMembers | src/alloc_check.c:351-371 | the second pass collects exactly the lost ids below its bound |
| LostBlocks.LostIdsBelowAscending | src/alloc_check.c:351-371 | the second pass collects the ids in strictly ascending order |
| LostBlocks.ContributionWithinTotal | src/alloc_check.c:340-344 | no lost block's last size exceeds the unbounded sum of the lost sizes (`LostBytesBelow`); the total the code reports is that sum modulo 2^64 and can be smaller |
| LostBlocks.LostBytesPointChange | src/alloc_check.c:322-345 | changing one history changes the lost total only by that block's change in contribution |
| LostBlocks.LostBytesAppend | src/alloc_check.c:322-345 | opening a new history leaves the totals over the existing ones alone |
| LostBlocks.MallocLeaksNewBlock | src/alloc_check.c:265-273 | a satisfied malloc adds its new id to the lost set and its size to the lost total; a failed one changes neither |
| LostBlocks.ReallocKeepsLostSet | src/alloc_check.c:284-291 | a realloc never changes the lost set; a lost block it resizes then counts at the new size, smaller or larger |
| LostBlocks.FreeReleasesResolvedBlock | src/alloc_check.c:302-305 | a free removes exactly the resolved id from the lost set, and that block's size from the total; freeing into bucket 0 releases nothing |
| Scenarios.RunOne | src/alloc_check.c:186-200 | the first call of a process initialises the ledger and then records itself |
| Scenarios.InitialShowsNothing | src/alloc_check.c:196-199 | a fresh ledger has only the NULL slot and nothing lost |
| Scenarios.ShowsMalloc | src/alloc_check.c:265-273 | a satisfied malloc takes the next slot and adds a lost block of its size |
| Scenarios.ShowsFree | src/alloc_check.c:302-305 | a free releases the resolved block if it was lost and otherwise changes nothing the leak pass sees |
| Scenarios.ShowsRealloc | src/alloc_check.c:284-291 | a realloc of a lost block overwrites its slot and swaps its old size for the new one in the total |
| Scenarios.AllocThenFreeNotLost | src/alloc_check.c:296-306 | a block allocated at a fresh address and freed once never shows as lost |
| Scenarios.TwoMallocsLeak | src/alloc_check.c:265-273 | two satisfied mallocs in a row add two lost blocks with both sizes |
| Scenarios.ShrinkToZeroNullTail | src/alloc_check.c:288-291 | from a ledger with blocks b and c lost (120 bytes, c last sized 40), a realloc of c that returns NULL leaves both lost, 80 bytes in all, with c's slot holding NULL |
| Scenarios.ReusedFree | src/alloc_check.c:302-305 | with an address held by two slots, a free resolves to the first, already freed id and leaves the second block lost |
| Scenarios.FailedReallocTail | src/alloc_check.c:282-305 | after a realloc of a lost block returns NULL, a free of its old address lands in bucket 0 and the block stays lost at the requested size |
| Scenarios.ShrinkToZeroMovedThenFreedLeaksOne | src/alloc_check.c:278-306 | malloc(16)=a, free(a), malloc(80)=b, malloc(40)=c, realloc(c,0)=d, free(d), for distinct non-NULL a, b, c and a non-NULL d different from a and b: only block b is lost, with 80 bytes |
| Scenarios.ShrinkToZeroMovedToFreedAddressTail | src/alloc_check.c:202-211 | from a ledger with blocks b and c lost (120 bytes, c last sized 40), realloc(c, 0) returning a's freed address and then free(a) leave both lost, 80 bytes in all: the free resolves to a's stale id 1 |
| Scenarios.ShrinkToZeroMovedToFreedAddressLeaksTwo | src/alloc_check.c:278-306 | the same calls with realloc(c,0) returning a's freed address, which is then freed: blocks b and c are lost, 80 bytes in all, and the slots read a, b, a |
| Scenarios.ShrinkToZeroNullLeaksTwo | src/alloc_check.c:288-290 | the same calls with realloc(c,0) returning NULL: blocks b and c are lost, 80 bytes in all, and c's slot holds NULL |
| Scenarios.ReusedAddressReportsFalseLeak | src/alloc_check.c:202-211 | when the allocator hands a freed address out again and it is freed again, both frees resolve to the first id, so the second block is reported lost |
| Scenarios.FailedReallocThenFreeReportsLeak | src/alloc_check.c:288-305 | a realloc that returns NULL, followed by freeing the original address, leaves the block reported lost at the size the failed realloc asked for |

## Left out

- The real `malloc`, `realloc` and `free` are not modelled. Their answers are inputs of each step (`Call.result`).
- The checker's own allocations failing (`DIE`, `DIE_NULL`, `exit(72)`) are left out. Every internal allocation is taken to succeed.
- `printf` output is left out: `print_missing_frees`, the layout of `report_alloc_checks` and its table borders. Only the numbers the report computes are modelled (the call counts, the lost-block count, the lost ids `find_lost_blocks` returns, and the lost total) plus the two field formatters; the report itself prints each lost block's list position, not its id (line 393).
- `report_alloc_checks`' zero-size, invalid and failed counters are left out. They are hard-coded to 0 in the source and no pass computes them.
- `checked_calloc` and `cleanup_alloc_checks` are declared in the header but not defined in src/alloc_check.c, so there is nothing to model.
- `trim_voidptr_array`, `destroy_voidptr_array` and `destroy_memory_entry` are left out. No operation in the ledger or the leak pass calls them.
- `create_memory_entry`'s copy of the file name is modelled as a value copy in `Entry`.
- The header's `#define` wrappers are left out. They route callers to the `checked_*` functions, or to the standard allocator when `USE_STANDARD_MEM` is defined (include/alloc_check.h:22-27), in which case nothing is checked. src/main.c, a demonstration program that calls those macros and then the report, is left out too.
- Addresses are naturals compared for equality; C pointer provenance is not modelled.
- Format.ShownFileName: file names are sequences of characters, while `strlen`, `%.17s` and the `snprintf` limits count bytes, so the model matches the C code only for ASCII names; a multi-byte UTF-8 name may be elided sooner in C and cut inside a character.
- Format.FormatFileLine, Format.FormatFileLineIntended, Format.FormatSize, Decimal.Truncate: lengths and limits count characters, not bytes (the same restriction; numerals and unit labels are ASCII, so it matters only for file names).
- AllocCheck.RecordMintingMalloc: `id_counter` is an unbounded natural, because wrapping it would take 2^64 successful mallocs.
- GrowArrays.Grow: the capacity is an unbounded natural. From the default capacity 4, the `size_t` shift of line 119 would wrap to 0 after 62 doublings, and the byte count `capacity * sizeof(void *)` of line 121 would wrap after 59; the as-written doubling (see Findings) would make the `realloc` of line 121 fail long before that.
- AllocCheck.Run: its own contract only keeps the ledger valid. The per-call counts are stated by AllocCheck.RunCounts, to keep each proof small.

## Behaviour of the code worth knowing

- A failed `realloc` (one that returns NULL) overwrites the block's slot with NULL (lines 288-290). When no other slot holds the old address, that address then resolves to bucket 0, and a later free of it leaves the block reported lost. (A `realloc(p, 0)` that returns NULL may instead have freed `p`; the ledger records it the same way.)
- Block lookup is a linear scan that returns the lowest matching slot (lines 202-211). An address the allocator hands out again therefore resolves to the older, stale id.
- With malloc(16) = a, free(a), malloc(80) = b, malloc(40) = c, realloc(c, 0): if the realloc returns NULL, the leak pass reports two blocks (b and c, 80 bytes); for distinct a, b and c, if it returns an address d, different from a and b, that is then freed, it reports b alone; if it returns a's freed address and that is freed, the free resolves to a's stale id 1 and the pass reports b and c (80 bytes).
- When no block is lost, `find_lost_blocks` calls `malloc(0 * sizeof(size_t))` (lines 347-348). C allows `malloc(0)` to return NULL, and `DIE_NULL` then ends a leak-free report with `exit(72)`. The model takes this allocation to succeed, as it does all of the checker's own allocations.
- Entries carry no sequence number, and there is no zero-allocate entry kind (`checked_calloc` is declared but not defined).

## Findings

| source | as written | input that shows it | evidently intended | confidence | as-written member | corrected member |
|---|---|---|---|---|---|---|
| src/alloc_check.c:138-142 | `append_voidptr_array` requests `capacity + 1` slots, so every append doubles the buffer, even when it has room | three appends to a fresh array reserve 32 slots; after n appends the capacity is 4·2^n, so a few dozen appends to the same array (for example about 30 mallocs, each of which appends to the MALLOC list, or about 30 reallocs or frees of one block, each of which appends to its history) make the checker's `realloc` of that array fail and exit | request `count + 1`, so the buffer grows only when full | high, not executed | GrowArrays.AppendCapacityExplodes | GrowArrays.AppendIntendedCapacityTight |
| src/alloc_check.c:69-80 | `snprintf(buf, 25, ...)` keeps only 24 characters, although the buffer is 25+1 and the report column is 25 wide | a 21-character file name with line 1234 prints as `abcdefghijklmnopq...:123` | limit 26, so that the 25 visible characters hold an elided name, the colon and a four-digit line | high, not executed | Format.FileLineCutsLine | Format.FileLineIntendedShowsLine |

=== FILE: alloc_check.dfy ===
/** The checker's ledger (`checker_status` in src/alloc_check.c) and the
    bookkeeping `checked_malloc`, `checked_realloc` and `checked_free` do
    after the real allocator has answered.

    The real allocator is an oracle: its answer is an input of each step
    (an address, 0 for NULL). Each `voidptr_array` is represented by the
    elements it holds; its capacity is modelled in module GrowArrays. */
module AllocCheck {
  import opened Common
  import opened Entries

  /** `checker_status`: the next id to mint, one chronological list per
      call kind, the id-to-address table (`pointers`, slot 0 for NULL) and
      the id-to-history table (`entry_lookup`). */
  datatype CheckerStatus = CheckerStatus(
    idCounter: nat,
    allocs: seq<Entry>,
    reallocs: seq<Entry>,
    frees: seq<Entry>,
    pointers: seq<Addr>,
    entryLookup: seq<seq<Entry>>)

  /** The process-wide `status`: absent until the first call initialises it. */
  datatype Global = Uninitialized | Initialized(status: CheckerStatus)

  /** Every entry of every history, as a multiset. */
  function AllEntries(h: seq<seq<Entry>>): multiset<Entry>
    decreases |h|
  {
    if |h| == 0 then multiset{} else AllEntries(h[..|h| - 1]) + multiset(h[|h| - 1])
  }

  /** The sum of the history lengths. */
  function TotalLength(h: seq<seq<Entry>>): nat
    decreases |h|
  {
    if |h| == 0 then 0 else TotalLength(h[..|h| - 1]) + |h[|h| - 1]|
  }

  lemma {:induction false} AllEntriesCount(h: seq<seq<Entry>>)
    ensures |AllEntries(h)| == TotalLength(h)
    decreases |h|
  {
    if |h| > 0 {
      AllEntriesCount(h[..|h| - 1]);
    }
  }

  lemma {:induction false} AllEntriesAppendAt(h: seq<seq<Entry>>, i: nat, e: Entry)
    requires i < |h|
    ensures AllEntries(h[i := h[i] + [e]]) == AllEntries(h) + multiset{e}
    decreases |h|
  {
    var n := |h|;
    var h' := h[i := h[i] + [e]];
    if i == n - 1 {
      assert h'[..n - 1] == h[..n - 1];
    } else {
      assert h'[..n - 1] == h[..n - 1][i := h[i] + [e]];
      AllEntriesAppendAt(h[..n - 1], i, e);
    }
  }

  lemma AllEntriesAppendNew(h: seq<seq<Entry>>, b: seq<Entry>)
    ensures AllEntries(h + [b]) == AllEntries(h) + multiset(b)
  {
    assert (h + [b])[..|h|] == h;
  }

  /** Ids are dense: one address slot and one history per id minted so far,
      with slot 0 holding NULL. */
  predicate IdsDense(s: CheckerStatus) {
    && 1 <= s.idCounter
    && |s.pointers| == s.idCounter
    && |s.entryLookup| == s.idCounter
    && s.pointers[0] == Null
  }

  /** Every history holds only entries filed under its own id; every real
      block's history opens with the successful MALLOC that minted it and
      has no other MALLOC; bucket 0's MALLOCs are the failed ones. */
  predicate HistoriesWellFormed(h: seq<seq<Entry>>) {
    && (forall i, j :: 0 <= i < |h| && 0 <= j < |h[i]| ==> h[i][j].id == i)
    && (forall i :: 1 <= i < |h| ==> |h[i]| > 0 && h[i][0].kind == Alloc && h[i][0].ptr != Null)
    && (forall i, j :: 1 <= i < |h| && 1 <= j < |h[i]| ==> h[i][j].kind != Alloc)
    && (|h| > 0 ==> forall j :: 0 <= j < |h[0]| && h[0][j].kind == Alloc ==> h[0][j].ptr == Null)
  }

  /** Each per-kind list holds entries of its own kind only. */
  predicate KindListsPure(s: CheckerStatus) {
    && (forall e :: e in s.allocs ==> e.kind == Alloc)
    && (forall e :: e in s.reallocs ==> e.kind == Realloc)
    && (forall e :: e in s.frees ==> e.kind == Free)
  }

  /** The per-kind lists and the histories hold the same entries. */
  predicate Balanced(s: CheckerStatus) {
    multiset(s.allocs) + multiset(s.reallocs) + multiset(s.frees) == AllEntries(s.entryLookup)
  }

  /** The invariant every state the checker reaches satisfies. */
  predicate Valid(s: CheckerStatus) {
    IdsDense(s) && HistoriesWellFormed(s.entryLookup) && KindListsPure(s) && Balanced(s)
  }

  /** A ledger is usable once initialised, and every initialised one is valid. */
  predicate GoodGlobal(g: Global) {
    g.Initialized? ==> Valid(g.status)
  }

  /** `h'` is `h` with exactly one history grown by exactly the entry `e`:
      either the existing history `id`, or a new one appended at `id == |h|`. */
  predicate OneHistoryGrew(h: seq<seq<Entry>>, h': seq<seq<Entry>>, id: nat, e: Entry) {
    && (|h'| == |h| || (|h'| == |h| + 1 && id == |h|))
    && id < |h'|
    && h'[id] == (if id < |h| then h[id] else []) + [e]
    && (forall i :: 0 <= i < |h| && i != id ==> h'[i] == h[i])
  }

  /** Filing an entry under an existing id keeps the histories well formed
      when it is not a MALLOC, or is a failed MALLOC filed under bucket 0. */
  lemma HistoriesAppendAt(h: seq<seq<Entry>>, id: nat, e: Entry)
    requires HistoriesWellFormed(h) && id < |h| && e.id == id
    requires e.kind != Alloc || (id == 0 && e.ptr == Null)
    ensures HistoriesWellFormed(h[id := h[id] + [e]])
  {
    var h': seq<seq<Entry>> := h[id := h[id] + [e]];
    forall i: nat, j: nat | i < |h'| && j < |h'[i]|
      ensures h'[i][j].id == i
    {
      if i == id && j == |h[id]| {
        assert h'[i][j] == e;
      } else {
        assert h'[i][j] == h[i][j];
      }
    }
  }

  /** Opening a new history with a successful MALLOC of the next id keeps
      the histories well formed. */
  lemma HistoriesAppendNew(h: seq<seq<Entry>>, e: Entry)
    requires HistoriesWellFormed(h) && |h| >= 1
    requires e.id == |h| && e.kind == Alloc && e.ptr != Null
    ensures HistoriesWellFormed(h + [[e]])
  {
  }

  /** The state `init_checker` builds: the NULL slot and bucket 0's empty
      history, next id 1, no entries anywhere. */
  function InitialStatus(): (s: CheckerStatus)
    ensures Valid(s)
    ensures s.idCounter == 1 && TotalLength(s.entryLookup) == 0
    ensures |s.allocs| == 0 && |s.reallocs| == 0 && |s.frees| == 0
  {
    CheckerStatus(1, [], [], [], [Null], [[]])
  }

  /** `init_checker`: builds the ledger on first use, and leaves an existing
      one untouched. */
  function InitChecker(g: Global): (s: CheckerStatus)
    requires GoodGlobal(g)
    ensures Valid(s)
    ensures g.Initialized? ==> s == g.status
    ensures g.Uninitialized? ==> s == InitialStatus()
  {
    match g
    case Uninitialized => InitialStatus()
    case Initialized(st) => st
  }

  /** The scan of `find_id` from slot `i` on. */
  function FindFrom(pointers: seq<Addr>, p: Addr, i: nat): (r: nat)
    requires i <= |pointers|
    ensures p in pointers[i..] ==>
              i <= r < |pointers| && pointers[r] == p && forall j :: i <= j < r ==> pointers[j] != p
    ensures p !in pointers[i..] ==> r == 0
    decreases |pointers| - i
  {
    if i == |pointers| then 0
    else if pointers[i] == p then i
    else
      assert pointers[i..] == [pointers[i]] + pointers[i + 1..];
      FindFrom(pointers, p, i + 1)
  }

  /** `find_id`: the lowest slot holding `p`, or 0 when no slot does. */
  function FindId(pointers: seq<Addr>, p: Addr): (r: nat)
    ensures |pointers| > 0 ==> r < |pointers|
    ensures p in pointers ==> 0 <= r < |pointers| && pointers[r] == p && forall j :: 0 <= j < r ==> pointers[j] != p
    ensures p !in pointers ==> r == 0
  {
    assert pointers[0..] == pointers;
    FindFrom(pointers, p, 0)
  }

  /** The bookkeeping of `checked_malloc` once `malloc` returned `ptr`: a
      NULL result is filed under bucket 0 and mints nothing; any other
      result mints the next id, takes a new address slot and a new history
      opened by this entry. Either way the entry joins the MALLOC list. */
  function RecordMalloc(s: CheckerStatus, ptr: Addr, size: Size, site: Site): (s': CheckerStatus)
    requires Valid(s)
    ensures Valid(s')
    ensures var id := if ptr == Null then 0 else s.idCounter;
            var e := Entry(id, Alloc, ptr, size, site);
              && s'.allocs == s.allocs + [e]
              && s'.reallocs == s.reallocs && s'.frees == s.frees
              && OneHistoryGrew(s.entryLookup, s'.entryLookup, id, e)
    ensures ptr == Null ==> s'.idCounter == s.idCounter && s'.pointers == s.pointers
    ensures ptr != Null ==> s'.idCounter == s.idCounter + 1 && s'.pointers == s.pointers + [ptr]
  {
    if ptr == Null then RecordFailedMalloc(s, size, site) else RecordMintingMalloc(s, ptr, size, site)
  }

  /** `checked_malloc` when `malloc` returned NULL: the entry goes to bucket 0. */
  function RecordFailedMalloc(s: CheckerStatus, size: Size, site: Site): (s': CheckerStatus)
    requires Valid(s)
    ensures Valid(s')
    ensures var e := Entry(0, Alloc, Null, size, site);
              && s'.allocs == s.allocs + [e]
              && s'.reallocs == s.reallocs && s'.frees == s.frees
              && OneHistoryGrew(s.entryLookup, s'.entryLookup, 0, e)
    ensures s'.idCounter == s.idCounter && s'.pointers == s.pointers
  {
    var e := Entry(0, Alloc, Null, size, site);
    var h := s.entryLookup[0 := s.entryLookup[0] + [e]];
    AllEntriesAppendAt(s.entryLookup, 0, e);
    HistoriesAppendAt(s.entryLookup, 0, e);
    var s' := s.(allocs := s.allocs + [e], entryLookup := h);
    assert multiset(s'.allocs) == multiset(s.allocs) + multiset{e};
    s'
  }

  /** `checked_malloc` when `malloc` returned an address: the next id is minted. */
  function RecordMintingMalloc(s: CheckerStatus, ptr: Addr, size: Size, site: Site): (s': CheckerStatus)
    requires Valid(s) && ptr != Null
    ensures Valid(s')
    ensures var e := Entry(s.idCounter, Alloc, ptr, size, site);
              && s'.allocs == s.allocs + [e]
              && s'.reallocs == s.reallocs && s'.frees == s.frees
              && OneHistoryGrew(s.entryLookup, s'.entryLookup, s.idCounter, e)
    ensures s'.idCounter == s.idCounter + 1 && s'.pointers == s.pointers + [ptr]
  {
    var id := s.idCounter;
    var e := Entry(id, Alloc, ptr, size, site);
    AllEntriesAppendNew(s.entryLookup, [e]);
    HistoriesAppendNew(s.entryLookup, e);
    var s' := CheckerStatus(id + 1, s.allocs + [e], s.reallocs, s.frees,
                            s.pointers + [ptr], s.entryLookup + [[e]]);
    assert multiset(s'.allocs) == multiset(s.allocs) + multiset{e};
    assert IdsDense(s');
    s'
  }

  /** The bookkeeping of `checked_realloc` once `realloc(ptr, size)` returned
      `newPtr`: the entry is filed under the id `ptr` resolves to, and a
      real block's address slot is overwritten with `newPtr`, NULL
      included; bucket 0's slot is never touched. */
  function RecordRealloc(s: CheckerStatus, ptr: Addr, newPtr: Addr, size: Size, site: Site): (s': CheckerStatus)
    requires Valid(s)
    ensures Valid(s')
    ensures var id := FindId(s.pointers, ptr);
            var e := Entry(id, Realloc, newPtr, size, site);
              && s'.reallocs == s.reallocs + [e]
              && s'.allocs == s.allocs && s'.frees == s.frees
              && OneHistoryGrew(s.entryLookup, s'.entryLookup, id, e)
              && |s'.pointers| == |s.pointers|
              && (forall i :: 0 <= i < |s.pointers| && i != id ==> s'.pointers[i] == s.pointers[i])
              && (id != 0 ==> s'.pointers[id] == newPtr)
              && (id == 0 ==> s'.pointers == s.pointers)
    ensures s'.idCounter == s.idCounter
  {
    var id := FindId(s.pointers, ptr);
    var e := Entry(id, Realloc, newPtr, size, site);
    var h := s.entryLookup[id := s.entryLookup[id] + [e]];
    AllEntriesAppendAt(s.entryLookup, id, e);
    HistoriesAppendAt(s.entryLookup, id, e);
    var pointers := MoveSlot(s.pointers, id, newPtr);
    var s' := s.(reallocs := s.reallocs + [e], pointers := pointers, entryLookup := h);
    assert multiset(s'.reallocs) == multiset(s.reallocs) + multiset{e};
    s'
  }

  /** The slot update of `checked_realloc`: a real block's slot takes the
      new address, NULL included; slot 0 is never written. */
  function MoveSlot(pointers: seq<Addr>, id: nat, newPtr: Addr): (r: seq<Addr>)
    requires id < |pointers|
    ensures |r| == |pointers|
    ensures forall i :: 0 <= i < |pointers| && i != id ==> r[i] == pointers[i]
    ensures id != 0 ==> r[id] == newPtr
    ensures id == 0 ==> r == pointers
  {
    if id != 0 then pointers[id := newPtr] else pointers
  }

  /** The bookkeeping of `checked_free(ptr)`: a size-0 FREE entry filed under
      the id `ptr` resolves to. The address table and the id counter are
      left alone, so the freed address keeps resolving to its old id. */
  function RecordFree(s: CheckerStatus, ptr: Addr, site: Site): (s': CheckerStatus)
    requires Valid(s)
    ensures Valid(s')
    ensures var id := FindId(s.pointers, ptr);
            var e := Entry(id, Free, ptr, 0, site);
              && s'.frees == s.frees + [e]
              && s'.allocs == s.allocs && s'.reallocs == s.reallocs
              && OneHistoryGrew(s.entryLookup, s'.entryLookup, id, e)
    ensures s'.pointers == s.pointers && s'.idCounter == s.idCounter
  {
    var id := FindId(s.pointers, ptr);
    var e := Entry(id, Free, ptr, 0, site);
    var h := s.entryLookup[id := s.entryLookup[id] + [e]];
    AllEntriesAppendAt(s.entryLookup, id, e);
    HistoriesAppendAt(s.entryLookup, id, e);
    var s' := s.(frees := s.frees + [e], entryLookup := h);
    assert multiset(s'.frees) == multiset(s.frees) + multiset{e};
    s'
  }

  /** One intercepted call together with the real allocator's answer. */
  datatype Call =
    | MallocCall(result: Addr, size: Size, site: Site)
    | ReallocCall(ptr: Addr, result: Addr, size: Size, site: Site)
    | FreeCall(ptr: Addr, site: Site)
  {
    /** The kind of entry the call logs. */
    function Kind(): EntryKind {
      match this
      case MallocCall(_, _, _) => Alloc
      case ReallocCall(_, _, _, _) => Realloc
      case FreeCall(_, _) => Free
    }
  }

  /** How many of `calls` log an entry of kind `k`. */
  function CountKind(calls: seq<Call>, k: EntryKind): nat
    decreases |calls|
  {
    if |calls| == 0 then 0
    else CountKind(calls[..|calls| - 1], k) + (if calls[|calls| - 1].Kind() == k then 1 else 0)
  }

  /** How many of `calls` are mallocs the real allocator satisfied. */
  function CountMinted(calls: seq<Call>): nat
    decreases |calls|
  {
    if |calls| == 0 then 0
    else
      var c := calls[|calls| - 1];
      CountMinted(calls[..|calls| - 1]) + (if c.MallocCall? && c.result != Null then 1 else 0)
  }

  /** The ledger part of one intercepted call. */
  function Step(s: CheckerStatus, c: Call): (s': CheckerStatus)
    requires Valid(s)
    ensures Valid(s')
  {
    match c
    case MallocCall(result, size, site) => RecordMalloc(s, result, size, site)
    case ReallocCall(ptr, result, size, site) => RecordRealloc(s, ptr, result, size, site)
    case FreeCall(ptr, site) => RecordFree(s, ptr, site)
  }

  /** `checked_malloc`, `checked_realloc` or `checked_free`: initialise the
      ledger if needed, then record the call. */
  function Intercept(g: Global, c: Call): (g': Global)
    requires GoodGlobal(g)
    ensures g'.Initialized? && Valid(g'.status)
  {
    Initialized(Step(InitChecker(g), c))
  }

  /** A program's calls, intercepted in order. */
  function Run(g: Global, calls: seq<Call>): (g': Global)
    requires GoodGlobal(g)
    ensures GoodGlobal(g')
    ensures |calls| > 0 ==> g'.Initialized?
    decreases |calls|
  {
    if |calls| == 0 then g
    else Intercept(Run(g, calls[..|calls| - 1]), calls[|calls| - 1])
  }

  /** Over a run, each list grows by the number of calls of its kind, the
      histories by the number of calls, and the id counter by the number of
      satisfied mallocs. */
  lemma {:induction false} RunCounts(g: Global, calls: seq<Call>)
    requires GoodGlobal(g)
    ensures var s, s' := InitChecker(g), InitChecker(Run(g, calls));
              && |s'.allocs| == |s.allocs| + CountKind(calls, Alloc)
              && |s'.reallocs| == |s.reallocs| + CountKind(calls, Realloc)
              && |s'.frees| == |s.frees| + CountKind(calls, Free)
              && s'.idCounter == s.idCounter + CountMinted(calls)
              && TotalLength(s'.entryLookup) == TotalLength(s.entryLookup) + |calls|
    decreases |calls|
  {
    if |calls| > 0 {
      var front, c := calls[..|calls| - 1], calls[|calls| - 1];
      var mid := Run(g, front);
      assert InitChecker(Run(g, calls)) == Step(InitChecker(mid), c);
      RunCounts(g, front);
      StepAddsOneEntry(InitChecker(mid), c);
      assert CountKind(calls, Alloc) == CountKind(front, Alloc) + (if c.Kind() == Alloc then 1 else 0);
      assert CountKind(calls, Realloc) == CountKind(front, Realloc) + (if c.Kind() == Realloc then 1 else 0);
      assert CountKind(calls, Free) == CountKind(front, Free) + (if c.Kind() == Free then 1 else 0);
      assert CountMinted(calls) == CountMinted(front) + (if c.MallocCall? && c.result != Null then 1 else 0);
    }
  }

  /** Each intercepted call adds exactly one entry to the list of its own
      kind, none to the other two, and one entry in all to the histories;
      only a satisfied malloc mints an id. */
  lemma StepAddsOneEntry(s: CheckerStatus, c: Call)
    requires Valid(s)
    ensures var s' := Step(s, c);
              && |s'.allocs| == |s.allocs| + (if c.Kind() == Alloc then 1 else 0)
              && |s'.reallocs| == |s.reallocs| + (if c.Kind() == Realloc then 1 else 0)
              && |s'.frees| == |s.frees| + (if c.Kind() == Free then 1 else 0)
              && s'.idCounter == s.idCounter + (if c.MallocCall? && c.result != Null then 1 else 0)
              && TotalLength(s'.entryLookup) == TotalLength(s.entryLookup) + 1
  {
    HistoryTotalGrowsByOne(s, Step(s, c));
  }

  /** The per-kind counts and the history lengths add up to the same total. */
  lemma EntryCountsBalance(s: CheckerStatus)
    requires Valid(s)
    ensures |s.allocs| + |s.reallocs| + |s.frees| == TotalLength(s.entryLookup)
  {
    AllEntriesCount(s.entryLookup);
    assert |multiset(s.allocs) + multiset(s.reallocs) + multiset(s.frees)|
        == |s.allocs| + |s.reallocs| + |s.frees|;
  }

  /** Every step adds one entry in all to the histories. */
  lemma HistoryTotalGrowsByOne(s: CheckerStatus, s': CheckerStatus)
    requires Valid(s) && Valid(s')
    requires |s'.allocs| + |s'.reallocs| + |s'.frees| == |s.allocs| + |s.reallocs| + |s.frees| + 1
    ensures TotalLength(s'.entryLookup) == TotalLength(s.entryLookup) + 1
  {
    EntryCountsBalance(s);
    EntryCountsBalance(s');
  }

  /** The call counts a report prints are the numbers of calls made to each
      entry point, failed ones included, and ids are minted once per
      successful malloc. */
  lemma {:induction false} ReportedCountsMatchCalls(calls: seq<Call>)
    ensures var s := InitChecker(Run(Uninitialized, calls));
              && |s.allocs| == CountKind(calls, Alloc)
              && |s.reallocs| == CountKind(calls, Realloc)
              && |s.frees| == CountKind(calls, Free)
              && s.idCounter == 1 + CountMinted(calls)
              && |s.pointers| == |s.entryLookup| == s.idCounter
              && TotalLength(s.entryLookup) == |calls|
  {
    RunCounts(Uninitialized, calls);
  }

  /** NULL always resolves to bucket 0, whatever other slots hold. */
  lemma FindIdNullIsBucketZero(s: CheckerStatus)
    requires Valid(s)
    ensures FindId(s.pointers, Null) == 0
  {
  }

  /** `find_id` returns the first slot holding the address. */
  lemma FindIdIsFirst(pointers: seq<Addr>, p: Addr, k: nat)
    requires k < |pointers| && pointers[k] == p
    requires forall j :: 0 <= j < k ==> pointers[j] != p
    ensures FindId(pointers, p) == k
  {
  }

  /** Appending a slot does not change what earlier addresses resolve to;
      the new slot is found only for an address no earlier slot holds. */
  lemma {:induction false} FindIdAppend(pointers: seq<Addr>, x: Addr, q: Addr)
    ensures FindId(pointers + [x], q) ==
              if q in pointers then FindId(pointers, q)
              else if q == x then |pointers| else 0
  {
    var ps := pointers + [x];
    assert ps[..|pointers|] == pointers;
    if q in pointers {
      var k := FindId(pointers, q);
      assert ps[k] == q && ps[..k] == pointers[..k];
    } else if q == x {
      assert ps[|pointers|] == q;
    }
  }

  /** A successful malloc at an address some older slot still holds (a
      reused address) mints a new id that `find_id` does not reach while
      that older slot keeps the address: the address resolves to the older,
      stale id. Only a fresh address resolves to the new id. */
  lemma MallocAtReusedAddressIsShadowed(s: CheckerStatus, ptr: Addr, size: Size, site: Site)
    requires Valid(s) && ptr != Null
    ensures var s' := RecordMalloc(s, ptr, size, site);
              && (ptr in s.pointers ==> FindId(s'.pointers, ptr) == FindId(s.pointers, ptr) < s.idCounter)
              && (ptr !in s.pointers ==> FindId(s'.pointers, ptr) == s.idCounter)
  {
    FindIdAppend(s.pointers, ptr, ptr);
  }

  /** After a realloc of a real block to an address no slot held, the block
      is found at its new address; its old address no longer resolves to it. */
  lemma ReallocMovesBlock(s: CheckerStatus, ptr: Addr, newPtr: Addr, size: Size, site: Site)
    requires Valid(s)
    requires FindId(s.pointers, ptr) != 0
    requires newPtr != Null && newPtr !in s.pointers
    ensures var s' := RecordRealloc(s, ptr, newPtr, size, site);
              && FindId(s'.pointers, newPtr) == FindId(s.pointers, ptr)
              && FindId(s'.pointers, ptr) != FindId(s.pointers, ptr)
  {
    var id := FindId(s.pointers, ptr);
    var s' := RecordRealloc(s, ptr, newPtr, size, site);
    assert s'.pointers[id] == newPtr;
    assert s'.pointers[id] != ptr;
  }

  /** A realloc that fails (NULL) still overwrites the block's slot, so the
      block's only slot no longer holds its address: a later free of that
      address falls into bucket 0. */
  lemma FailedReallocForgetsAddress(s: CheckerStatus, ptr: Addr, size: Size, site: Site)
    requires Valid(s)
    requires ptr != Null
    requires var id := FindId(s.pointers, ptr);
               id != 0 && forall i :: 0 <= i < |s.pointers| && i != id ==> s.pointers[i] != ptr
    ensures var s' := RecordRealloc(s, ptr, Null, size, site);
              && s'.pointers[FindId(s.pointers, ptr)] == Null
              && FindId(s'.pointers, ptr) == 0
  {
    var s' := RecordRealloc(s, ptr, Null, size, site);
    var id := FindId(s.pointers, ptr);
    assert forall i :: 0 <= i < |s'.pointers| ==> s'.pointers[i] != ptr;
  }
}

=== FILE: common.dfy ===
/** Small shared vocabulary: an optional value and the C integer widths the
    allocation checker works with. */
module Common {

  /** A value that may be absent. */
  datatype Option<T> = None | Some(value: T)

  /** 2^64: one past the largest value of a 64-bit `size_t`. */
  const U64: nat := 0x1_0000_0000_0000_0000

  /** A C `size_t` on a 64-bit target. */
  type Size = n: nat | n < U64

  /** A C `int` (the line numbers the call sites report). */
  type Int32 = n: int | -0x8000_0000 <= n < 0x8000_0000

  function Max(a: nat, b: nat): (m: nat)
    ensures m >= a && m >= b && (m == a || m == b)
  {
    if a >= b then a else b
  }

  /** 2^k, the factor a left shift by k bits applies. */
  function Pow2(k: nat): (p: nat)
    ensures p >= 1
  {
    if k == 0 then 1 else 2 * Pow2(k - 1)
  }

  /** 10^k, used to bound the width of decimal numerals. */
  function Pow10(k: nat): (p: nat)
    ensures p >= 1
  {
    if k == 0 then 1 else 10 * Pow10(k - 1)
  }
}

=== FILE: decimal.dfy ===
/** Decimal rendering as `printf`'s `%ld`/`%d` produce it, its inverse, and
    the truncation `snprintf` applies when the output does not fit. */
module Decimal {
  import opened Common

  predicate IsDigit(c: char) {
    '0' <= c <= '9'
  }

  predicate AllDigits(s: string) {
    forall i :: 0 <= i < |s| ==> IsDigit(s[i])
  }

  function DigitChar(d: nat): (c: char)
    requires d < 10
    ensures IsDigit(c)
  {
    (48 + d) as char
  }

  function DigitValue(c: char): (d: nat)
    requires IsDigit(c)
    ensures d < 10
  {
    c as int - 48
  }

  /** The decimal numeral of `n`, most significant digit first, with no
      leading zeros (`0` is written "0"). */
  function Dec(n: nat): (s: string)
    ensures |s| >= 1 && AllDigits(s)
    decreases n
  {
    if n < 10 then [DigitChar(n)] else Dec(n / 10) + [DigitChar(n % 10)]
  }

  /** Reads a string of digits back as a number (the empty string reads as 0). */
  function ParseDec(s: string): nat
    requires AllDigits(s)
    decreases |s|
  {
    if |s| == 0 then 0 else ParseDec(s[..|s| - 1]) * 10 + DigitValue(s[|s| - 1])
  }

  /** Reading a numeral back gives the number that was written. */
  lemma {:induction false} DecRoundTrip(n: nat)
    ensures ParseDec(Dec(n)) == n
    decreases n
  {
    var s := Dec(n);
    if n < 10 {
      assert s[..|s| - 1] == [];
    } else {
      DecRoundTrip(n / 10);
      assert s[..|s| - 1] == Dec(n / 10);
      assert DigitValue(s[|s| - 1]) == n % 10;
    }
  }

  /** A number below 10^k needs at most k digits. */
  lemma {:induction false} DecWidthAtMost(n: nat, k: nat)
    requires 1 <= k && n < Pow10(k)
    ensures |Dec(n)| <= k
    decreases n
  {
    if n >= 10 {
      assert Pow10(1) == 10;
      assert n / 10 < Pow10(k - 1);
      DecWidthAtMost(n / 10, k - 1);
    }
  }

  /** A number at least 10^k needs more than k digits. */
  lemma {:induction false} DecWidthAbove(n: nat, k: nat)
    requires Pow10(k) <= n
    ensures |Dec(n)| > k
    decreases n
  {
    if k > 0 {
      assert n >= 10 by { assert Pow10(k) >= 10 * Pow10(k - 1); }
      assert Pow10(k - 1) <= n / 10;
      DecWidthAbove(n / 10, k - 1);
    }
  }

  /** `printf("%d", x)` for a signed value: a minus sign, then the magnitude. */
  function IntDec(x: int): (s: string)
    ensures |s| >= 1
    ensures x >= 0 ==> s == Dec(x)
    ensures x < 0 ==> s[0] == '-' && s[1..] == Dec(-x)
  {
    if x < 0 then "-" + Dec(-x) else Dec(x)
  }

  /** What `snprintf(buf, limit + 1, ...)` leaves in `buf`: the longest prefix
      of the formatted text that has at most `limit` characters. */
  function Truncate(s: string, limit: nat): (r: string)
    ensures |r| <= limit && r <= s
    ensures |s| <= limit ==> r == s
    ensures |s| > limit ==> |r| == limit
  {
    if |s| <= limit then s else s[..limit]
  }
}

=== FILE: entries.dfy ===
/** The event record the checker keeps for every intercepted call
    (`memory_entry` in src/alloc_check.c) and its printable kind name. */
module Entries {
  import opened Common

  /** An address handed out by the real allocator; 0 stands for NULL. */
  type Addr = nat

  const Null: Addr := 0

  /** `enum ENTRY_TYPE`. */
  datatype EntryKind = Nval | Alloc | Realloc | Free {
    /** The integer the C enum assigns to the kind. */
    function Code(): int {
      match this
      case Nval => 0
      case Alloc => 1
      case Realloc => 2
      case Free => 3
    }
  }

  /** The `__FILE__`/`__LINE__` pair the interception macros pass in. */
  datatype Site = Site(fileName: string, line: Int32)

  /** One logged call: the block id it was filed under, its kind, the address
      it recorded (the new address for a realloc), the requested size (0 for
      a free) and the call site. */
  datatype Entry = Entry(id: nat, kind: EntryKind, ptr: Addr, size: Size, site: Site)

  /** `entry_type_str`: the report's label for an entry kind code. Codes other
      than MALLOC, REALLOC and FREE print as the empty string. */
  function EntryTypeStr(code: int): (name: string)
    ensures name != "" <==> 1 <= code <= 3
  {
    if code == 1 then "MALLOC"
    else if code == 2 then "REALLOC"
    else if code == 3 then "FREE"
    else ""
  }

  /** Reads a report label back as the kind it names. */
  function KindOfLabel(name: string): Option<EntryKind> {
    if name == "MALLOC" then Some(Alloc)
    else if name == "REALLOC" then Some(Realloc)
    else if name == "FREE" then Some(Free)
    else None
  }

  /** Every real kind prints under a label that names it and no other kind;
      the placeholder kind prints as nothing. */
  lemma EntryTypeStrNamesKind(k: EntryKind)
    ensures k != Nval ==> KindOfLabel(EntryTypeStr(k.Code())) == Some(k)
    ensures k == Nval ==> EntryTypeStr(k.Code()) == ""
  {
  }
}

=== FILE: format.dfy ===
/** The report's two text helpers: `format_size`, which writes a byte count
    in a binary-scaled unit into a 6-character field, and
    `format_file_line`, which writes a call site with long file names elided. */
module Format {
  import opened Common
  import opened Decimal

  /** The units `format_size` chooses from. */
  datatype SizeUnit = B | KB | MB | GB | TB | PB {
    function Label(): string {
      match this
      case B => "B"
      case KB => "kB"
      case MB => "MB"
      case GB => "GB"
      case TB => "TB"
      case PB => "PB"
    }

    /** The right shift `format_size` applies for this unit. */
    function Shift(): nat {
      match this
      case B => 0
      case KB => 10
      case MB => 20
      case GB => 30
      case TB => 40
      case PB => 50
    }

    /** 2^Shift(): shifting right by Shift() divides by this. */
    function Scale(): nat {
      match this
      case B => 1
      case KB => 0x400
      case MB => 0x10_0000
      case GB => 0x4000_0000
      case TB => 0x100_0000_0000
      case PB => 0x4_0000_0000_0000
    }
  }

  /** The unit `format_size` picks: the first threshold the size exceeds,
      compared from the largest down; sizes up to 0x10000 stay in bytes. */
  function UnitFor(size: Size): SizeUnit {
    if size > 0x20_0000_0000_0000 then PB
    else if size > 0x800_0000_0000 then TB
    else if size > 0x2_0000_0000 then GB
    else if size > 0x80_0000 then MB
    else if size > 0x1_0000 then KB
    else B
  }

  /** The number printed in front of the unit: `size >> shift`. */
  function Shown(size: Size): nat {
    size / UnitFor(size).Scale()
  }

  /** What `"%ld%s"` (or `"%ldB"`) produces before the buffer limit applies. */
  function SizeText(size: Size): string {
    Dec(Shown(size)) + UnitFor(size).Label()
  }

  /** `format_size`: the text, cut to the six characters `snprintf(buf, 7, ...)`
      leaves room for. */
  function FormatSize(size: Size): (r: string)
    ensures |r| <= 6 && r <= SizeText(size)
    ensures |SizeText(size)| <= 6 ==> r == SizeText(size)
    ensures |SizeText(size)| > 6 ==> |r| == 6
  {
    Truncate(SizeText(size), 6)
  }

  lemma {:induction false} Pow2Add(a: nat, b: nat)
    ensures Pow2(a + b) == Pow2(a) * Pow2(b)
    decreases a
  {
    if a > 0 {
      Pow2Add(a - 1, b);
    }
  }

  /** Each unit's scale is 2 to the power of its shift, so `size >> shift`
      is `size / Scale()`. */
  lemma ScaleIsShift(u: SizeUnit)
    ensures u.Scale() == Pow2(u.Shift())
  {
    assert Pow2(10) == 0x400;
    Pow2Add(10, 10);
    Pow2Add(20, 10);
    Pow2Add(30, 10);
    Pow2Add(40, 10);
  }

  /** The thresholds and the range of the printed number in each band:
      bytes up to 0x10000 are printed exactly; in the kB band the number
      lies in [64, 8192]; in the MB, GB and TB bands in [8, 8192]; in the
      PB band in [8, 16383]. */
  lemma {:induction false} ShownValueBands(size: Size)
    ensures UnitFor(size) == B <==> size <= 0x1_0000
    ensures UnitFor(size) == B ==> Shown(size) == size
    ensures UnitFor(size) == KB ==> 64 <= Shown(size) <= 8192
    ensures UnitFor(size) in {MB, GB, TB} ==> 8 <= Shown(size) <= 8192
    ensures UnitFor(size) == PB ==> 8 <= Shown(size) <= 16383
  {
    match UnitFor(size)
    case B =>
    case KB =>
    case MB =>
    case GB =>
    case TB =>
    case PB =>
  }

  /** Up to 0x20000000000000 bytes the text fits the six-character field, so
      `format_size` never cuts it. */
  lemma {:induction false} FormatSizeFits(size: Size)
    requires size <= 0x20_0000_0000_0000
    ensures |SizeText(size)| <= 6
    ensures FormatSize(size) == SizeText(size)
  {
    ShownValueBands(size);
    if UnitFor(size) == B {
      DecWidthAtMost(Shown(size), 5);
    } else {
      DecWidthAtMost(Shown(size), 4);
    }
  }

  /** Past 10000 PB the printed number has five digits and the unit is cut
      to its first letter: the largest `size_t` prints as "16383P". */
  lemma LargestSizeLosesUnit()
    ensures FormatSize(U64 - 1) == "16383P"
  {
    assert Shown(U64 - 1) == 16383;
    assert Dec(16383) == "16383";
  }

  /** How many digits `s` starts with. */
  function LeadingDigits(s: string): (k: nat)
    ensures 0 <= k <= |s| && forall j :: 0 <= j < k ==> IsDigit(s[j])
    ensures k < |s| ==> !IsDigit(s[k])
    decreases |s|
  {
    if |s| == 0 || !IsDigit(s[0]) then 0
    else
      var n := 1 + LeadingDigits(s[1..]);
      assert s[..n] == [s[0]] + s[1..][..n - 1];
      n
  }

  function UnitOfLabel(s: string): Option<SizeUnit> {
    if s == "B" then Some(B)
    else if s == "kB" then Some(KB)
    else if s == "MB" then Some(MB)
    else if s == "GB" then Some(GB)
    else if s == "TB" then Some(TB)
    else if s == "PB" then Some(PB)
    else None
  }

  /** Reads a `format_size` field back as (number, unit). */
  function ParseSizeText(s: string): Option<(nat, SizeUnit)> {
    var k := LeadingDigits(s);
    if k == 0 then None
    else match UnitOfLabel(s[k..])
      case None => None
      case Some(u) => Some((ParseDec(s[..k]), u))
  }

  lemma {:induction false} LeadingDigitsOfNumeral(d: string, rest: string)
    requires AllDigits(d)
    requires |rest| > 0 && !IsDigit(rest[0])
    ensures LeadingDigits(d + rest) == |d|
    decreases |d|
  {
    if |d| > 0 {
      assert (d + rest)[1..] == d[1..] + rest;
      LeadingDigitsOfNumeral(d[1..], rest);
    }
  }

  /** Every unit label reads back as its unit and starts with a non-digit. */
  lemma UnitLabelReadsBack(u: SizeUnit)
    ensures UnitOfLabel(u.Label()) == Some(u)
    ensures |u.Label()| > 0 && !IsDigit(u.Label()[0])
  {
    match u
    case B =>
    case KB =>
    case MB =>
    case GB =>
    case TB =>
    case PB =>
  }

  /** A numeral followed by a unit label reads back as that number and unit. */
  lemma ParseNumberAndUnit(d: string, u: SizeUnit)
    requires |d| >= 1 && AllDigits(d)
    ensures ParseSizeText(d + u.Label()) == Some((ParseDec(d), u))
  {
    var name := u.Label();
    UnitLabelReadsBack(u);
    LeadingDigitsOfNumeral(d, name);
    assert (d + name)[..|d|] == d && (d + name)[|d|..] == name;
  }

  /** Integer division by a unit's scale rounds down. */
  lemma ShownRoundsDown(size: Size)
    ensures var u := UnitFor(size);
              Shown(size) * u.Scale() <= size < (Shown(size) + 1) * u.Scale()
  {
  }

  /** Round trip: a field `format_size` writes for up to 0x20000000000000
      bytes reads back as the unit it chose and a number that is the size
      in that unit rounded down (exactly the size when the unit is bytes). */
  lemma {:induction false} FormatSizeReadsBack(size: Size)
    requires size <= 0x20_0000_0000_0000
    ensures ParseSizeText(FormatSize(size)).Some?
    ensures var (v, u) := ParseSizeText(FormatSize(size)).value;
              && u == UnitFor(size)
              && v * u.Scale() <= size < (v + 1) * u.Scale()
              && (u == B ==> v == size)
  {
    FormatSizeFits(size);
    ParseNumberAndUnit(Dec(Shown(size)), UnitFor(size));
    DecRoundTrip(Shown(size));
    ShownRoundsDown(size);
  }

  /** Names up to this length are printed whole. */
  const FileNameField: nat := 20

  /** How many characters of a longer name are kept before the "...". */
  const FileNameKept: nat := 17

  /** The file-name part of `format_file_line`: short names whole, longer
      ones as their first 17 characters followed by "...". */
  function ShownFileName(name: string): (r: string)
    ensures |r| <= FileNameField
    ensures |name| <= FileNameField ==> r == name
    ensures |name| > FileNameField ==>
              |r| == FileNameField && r[..FileNameKept] == name[..FileNameKept] && r[FileNameKept..] == "..."
  {
    if |name| <= FileNameField then name else name[..FileNameKept] + "..."
  }

  /** The `"%s:%d"` text before the buffer limit applies. */
  function FileLineText(name: string, line: Int32): string {
    ShownFileName(name) + ":" + IntDec(line)
  }

  /** `format_file_line` as written: `snprintf(buf, 25, ...)` keeps at most
      24 characters, although the buffer and the report column hold 25. */
  function FormatFileLine(name: string, line: Int32): (r: string)
    ensures |r| <= 24 && r <= FileLineText(name, line)
    ensures |FileLineText(name, line)| <= 24 ==> r == FileLineText(name, line)
    ensures |FileLineText(name, line)| > 24 ==> |r| == 24
  {
    Truncate(FileLineText(name, line), 24)
  }

  /** `format_file_line` with the limit the 25+1 buffer was sized for. */
  function FormatFileLineIntended(name: string, line: Int32): (r: string)
    ensures |r| <= 25 && r <= FileLineText(name, line)
    ensures |FileLineText(name, line)| <= 25 ==> r == FileLineText(name, line)
    ensures |FileLineText(name, line)| > 25 ==> |r| == 25
  {
    Truncate(FileLineText(name, line), 25)
  }

  /** With the intended limit every line number below 10000 is printed in
      full after the (possibly elided) name and a colon, and reads back as
      the line. */
  lemma {:induction false} FileLineIntendedShowsLine(name: string, line: Int32)
    requires 0 <= line < 10000
    ensures var r := FormatFileLineIntended(name, line);
            var k := |ShownFileName(name)|;
              && |r| == k + 1 + |Dec(line)|
              && r[..k] == ShownFileName(name) && r[k] == ':'
              && AllDigits(r[k + 1..]) && ParseDec(r[k + 1..]) == line
  {
    assert Pow10(4) == 10000;
    DecWidthAtMost(line, 4);
    var t := FileLineText(name, line);
    var k := |ShownFileName(name)|;
    assert t[k + 1..] == Dec(line);
    DecRoundTrip(line);
  }

  /** As written, a name longer than 20 characters with a four-digit line
      number loses the line's last digit: the field shows `line / 10`. */
  lemma {:induction false} FileLineCutsLine(name: string, line: Int32)
    requires |name| > FileNameField && 1000 <= line < 10000
    ensures var r := FormatFileLine(name, line);
              && |r| == 24
              && r[..21] == ShownFileName(name) + ":"
              && AllDigits(r[21..]) && ParseDec(r[21..]) == line / 10
              && ParseDec(r[21..]) != line
  {
    var t := FileLineText(name, line);
    assert Dec(line) == Dec(line / 10) + [DigitChar(line % 10)];
    assert Pow10(3) == 1000;
    assert Pow10(2) == 100;
    DecWidthAtMost(line / 10, 3);
    DecWidthAbove(line / 10, 2);
    assert t == ShownFileName(name) + ":" + Dec(line / 10) + [DigitChar(line % 10)];
    assert t[..24][21..] == Dec(line / 10);
    DecRoundTrip(line / 10);
  }

  /** One concrete case: line 1234 of a 21-character file name prints as 123. */
  lemma FileLineCutExample()
    ensures FormatFileLine("abcdefghijklmnopqrstu", 1234) == "abcdefghijklmnopq...:123"
    ensures FormatFileLineIntended("abcdefghijklmnopqrstu", 1234) == "abcdefghijklmnopq...:1234"
  {
    assert Dec(1234) == "1234";
  }
}

=== FILE: grow_array.dfy ===
/** The checker's hand-rolled growable array (`voidptr_array`): the stored
    elements plus the capacity of the backing buffer. */
module GrowArrays {
  import opened Common

  /** `VOIDPTRARR_DEFAULT_CAP`. */
  const DefaultCapacity: nat := 4

  /** `items` are `data[0..count)`; `capacity` is the allocated length. */
  datatype GrowArray<T> = GrowArray(items: seq<T>, capacity: nat)

  /** The array's invariant: the elements fit in the buffer, and the buffer
      never shrinks below the default it was created with. */
  predicate Valid<T>(a: GrowArray<T>) {
    DefaultCapacity <= a.capacity && |a.items| <= a.capacity
  }

  /** `create_voidptr_array`. */
  function Create<T>(): (a: GrowArray<T>)
    ensures Valid(a) && |a.items| == 0 && a.capacity == DefaultCapacity
  {
    GrowArray([], DefaultCapacity)
  }

  /** `c` is `base` doubled zero or more times. */
  predicate DoublingOf(base: nat, c: nat)
    decreases c
  {
    c == base || (base < c && c % 2 == 0 && DoublingOf(base, c / 2))
  }

  /** Doubling a base that `c` is a doubling of keeps `c` a doubling of the
      original base. */
  lemma {:induction false} DoublingOfHalf(base: nat, c: nat)
    requires base >= 1 && DoublingOf(2 * base, c)
    ensures DoublingOf(base, c)
    decreases c
  {
    if c != 2 * base {
      DoublingOfHalf(base, c / 2);
    }
  }

  /** The doubling loop of `ensure_voidptr_array`: the first of
      `cap, 2 cap, 4 cap, ...` that reaches `want`. */
  function Grow(cap: nat, want: nat): (c: nat)
    requires cap >= 1
    ensures c >= want && c >= cap && DoublingOf(cap, c)
    ensures c == cap || c < 2 * want
    decreases want - cap
  {
    if cap >= want then cap
    else
      var c := Grow(2 * cap, want);
      DoublingOfHalf(cap, c);
      c
  }

  /** `ensure_voidptr_array(arr, want)`: an array that already holds `want`
      slots is left alone; otherwise the capacity is raised to the default
      and doubled until it reaches `want`. The elements never change. */
  function EnsureCapacity<T>(a: GrowArray<T>, want: nat): (r: GrowArray<T>)
    ensures r.items == a.items
    ensures r.capacity >= want && r.capacity >= a.capacity
    ensures a.capacity >= want ==> r == a
    ensures a.capacity < want ==>
              DoublingOf(Max(a.capacity, DefaultCapacity), r.capacity)
              && (r.capacity == Max(a.capacity, DefaultCapacity) || r.capacity < 2 * want)
  {
    if a.capacity >= want then a
    else GrowArray(a.items, Grow(Max(a.capacity, DefaultCapacity), want))
  }

  /** `append_voidptr_array` as written: it asks for `capacity + 1` slots, so
      the buffer doubles on every append, full or not. */
  function Append<T>(a: GrowArray<T>, x: T): (r: GrowArray<T>)
    requires Valid(a)
    ensures Valid(r) && r.items == a.items + [x]
    ensures r.capacity == 2 * a.capacity
  {
    var grown := EnsureCapacity(a, a.capacity + 1);
    GrowArray(grown.items + [x], grown.capacity)
  }

  /** `append_voidptr_array` as evidently intended: ask for `count + 1`
      slots, so the buffer grows only when it is full. */
  function AppendIntended<T>(a: GrowArray<T>, x: T): (r: GrowArray<T>)
    requires Valid(a)
    ensures Valid(r) && r.items == a.items + [x]
    ensures |a.items| < a.capacity ==> r.capacity == a.capacity
    ensures |a.items| == a.capacity ==> r.capacity == 2 * a.capacity
  {
    var grown := EnsureCapacity(a, |a.items| + 1);
    GrowArray(grown.items + [x], grown.capacity)
  }

  /** Appends `xs` one by one with the as-written `Append`. */
  function AppendAll<T>(a: GrowArray<T>, xs: seq<T>): (r: GrowArray<T>)
    requires Valid(a)
    ensures Valid(r) && r.items == a.items + xs
    decreases |xs|
  {
    if |xs| == 0 then a
    else
      var front := AppendAll(a, xs[..|xs| - 1]);
      assert a.items + xs == front.items + [xs[|xs| - 1]];
      Append(front, xs[|xs| - 1])
  }

  /** Appends `xs` one by one with `AppendIntended`. */
  function AppendAllIntended<T>(a: GrowArray<T>, xs: seq<T>): (r: GrowArray<T>)
    requires Valid(a)
    ensures Valid(r) && r.items == a.items + xs
    decreases |xs|
  {
    if |xs| == 0 then a
    else
      var front := AppendAllIntended(a, xs[..|xs| - 1]);
      assert a.items + xs == front.items + [xs[|xs| - 1]];
      AppendIntended(front, xs[|xs| - 1])
  }

  /** As written, an array that has received n more elements holds a buffer
      2^n times larger: the capacity is exponential in the element count. */
  lemma {:induction false} AppendCapacityExplodes<T>(a: GrowArray<T>, xs: seq<T>)
    requires Valid(a)
    ensures AppendAll(a, xs).capacity == a.capacity * Pow2(|xs|)
    decreases |xs|
  {
    if |xs| > 0 {
      var n := |xs|;
      AppendCapacityExplodes(a, xs[..n - 1]);
      assert a.capacity * Pow2(n) == 2 * (a.capacity * Pow2(n - 1));
    }
  }

  /** Three appends to a fresh array already reserve 32 slots. */
  lemma AppendThreeReservesThirtyTwo()
    ensures AppendAll(Create<int>(), [1, 2, 3]).capacity == 32
  {
    AppendCapacityExplodes(Create<int>(), [1, 2, 3]);
    assert Pow2(3) == 8;
  }

  /** With the intended growth rule, a fresh array that has received n
      elements keeps the default buffer or fewer than 2n slots. */
  lemma {:induction false} AppendIntendedCapacityTight<T>(xs: seq<T>)
    ensures var r := AppendAllIntended(Create<T>(), xs);
              r.capacity == DefaultCapacity || r.capacity < 2 * |xs|
    decreases |xs|
  {
    if |xs| > 0 {
      AppendIntendedCapacityTight(xs[..|xs| - 1]);
    }
  }

  /** With the intended rule, three appends to a fresh array keep its four slots. */
  lemma AppendIntendedThreeKeepsFour()
    ensures AppendAllIntended(Create<int>(), [1, 2, 3]).capacity == DefaultCapacity
  {
    var xs := [1, 2, 3];
    assert xs[..2] == [1, 2] && [1, 2][..1] == [1] && [1][..0] == [];
    var a1 := AppendAllIntended(Create<int>(), [1]);
    assert |a1.items| == 1 && a1.capacity == DefaultCapacity;
    var a2 := AppendAllIntended(Create<int>(), [1, 2]);
    assert |a2.items| == 2 && a2.capacity == DefaultCapacity;
  }
}

=== FILE: lost_blocks.dfy ===
/** The report's leak pass, `find_lost_blocks`: every block whose history
    has no FREE entry is lost, and the memory lost is the sum of the sizes
    of those blocks' last entries. Bucket 0 is never reported. */
module LostBlocks {
  import opened Common
  import opened Entries
  import opened AllocCheck

  /** A history holds a FREE entry. */
  predicate Freed(block: seq<Entry>) {
    exists j :: 0 <= j < |block| && block[j].kind == Free
  }

  /** The size recorded by a history's last entry (0 for an empty history). */
  function LastSize(block: seq<Entry>): Size {
    if |block| == 0 then 0 else block[|block| - 1].size
  }

  /** Id `i` names a real block that was never freed. */
  predicate IsLost(h: seq<seq<Entry>>, i: nat) {
    1 <= i < |h| && !Freed(h[i])
  }

  /** The set of lost block ids. */
  function LostSet(h: seq<seq<Entry>>): set<nat> {
    set i: nat | i < |h| && IsLost(h, i)
  }

  /** What block `i` adds to the memory lost: its last size if it is lost. */
  function Contribution(h: seq<seq<Entry>>, i: nat): Size {
    if IsLost(h, i) then LastSize(h[i]) else 0
  }

  /** The lost ids below `n`, in ascending order. */
  function LostIdsBelow(h: seq<seq<Entry>>, n: nat): seq<nat>
    decreases n
  {
    if n <= 1 then [] else LostIdsBelow(h, n - 1) + (if IsLost(h, n - 1) then [n - 1] else [])
  }

  /** The memory lost by the blocks below `n`, as an unbounded sum. */
  function LostBytesBelow(h: seq<seq<Entry>>, n: nat): nat
    decreases n
  {
    if n == 0 then 0 else LostBytesBelow(h, n - 1) + Contribution(h, n - 1)
  }

  /** The memory lost by the whole ledger, as an unbounded sum. */
  function LostBytes(h: seq<seq<Entry>>): nat {
    LostBytesBelow(h, |h|)
  }

  /** `LostIdsBelow(h, n)` lists exactly the lost ids below `n`. */
  lemma {:induction false} LostIdsBelowMembers(h: seq<seq<Entry>>, n: nat)
    ensures forall x: nat :: x in LostIdsBelow(h, n) <==> x < n && IsLost(h, x)
    decreases n
  {
    if n > 1 {
      LostIdsBelowMembers(h, n - 1);
    }
  }

  /** `LostIdsBelow(h, n)` is strictly ascending, so it lists each lost id once. */
  lemma {:induction false} LostIdsBelowAscending(h: seq<seq<Entry>>, n: nat)
    ensures forall a, b :: 0 <= a < b < |LostIdsBelow(h, n)| ==>
              LostIdsBelow(h, n)[a] < LostIdsBelow(h, n)[b]
    decreases n
  {
    if n > 1 {
      LostIdsBelowAscending(h, n - 1);
      LostIdsBelowMembers(h, n - 1);
      var front := LostIdsBelow(h, n - 1);
      forall k | 0 <= k < |front|
        ensures front[k] < n - 1
      {
        assert front[k] in LostIdsBelow(h, n - 1);
      }
    }
  }

  /** The inner scan of `find_lost_blocks` over one history: stop at the
      first FREE entry; otherwise remember the size of the last entry seen. */
  method ScanBlock(block: seq<Entry>) returns (freed: bool, lastSize: Size)
    ensures freed == Freed(block)
    ensures !freed ==> lastSize == LastSize(block)
  {
    freed := false;
    lastSize := 0;
    var j := 0;
    while j < |block|
      invariant 0 <= j <= |block|
      invariant forall k :: 0 <= k < j ==> block[k].kind != Free
      invariant lastSize == if j == 0 then 0 else block[j - 1].size
    {
      lastSize := block[j].size;
      if block[j].kind == Free {
        freed := true;
        break;
      }
      j := j + 1;
    }
  }

  /** Adding to a `size_t` wraps modulo 2^64. */
  lemma AddWraps(acc: nat, x: nat)
    ensures (acc % U64 + x) % U64 == (acc + x) % U64
  {
  }

  /** `find_lost_blocks` over `entry_lookup`. The first pass counts the lost
      blocks and adds up their last sizes in a `size_t`; the second pass
      collects their ids. */
  method FindLostBlocks(h: seq<seq<Entry>>) returns (blocks: seq<nat>, blockCount: nat, totalSize: Size)
    ensures blockCount == |blocks|
    ensures forall x :: x in blocks <==> 1 <= x < |h| && !Freed(h[x])
    ensures forall a, b :: 0 <= a < b < |blocks| ==> blocks[a] < blocks[b]
    ensures totalSize == LostBytes(h) % U64
  {
    var n := |h|;
    blockCount := 0;
    totalSize := 0;
    var i := 1;
    while i < n
      invariant 1 <= i <= Max(n, 1)
      invariant blockCount == |LostIdsBelow(h, i)|
      invariant totalSize == LostBytesBelow(h, i) % U64
    {
      var freed, lastSize := ScanBlock(h[i]);
      if !freed {
        blockCount := blockCount + 1;
        AddWraps(LostBytesBelow(h, i), lastSize);
        totalSize := (totalSize + lastSize) % U64;
      }
      i := i + 1;
    }
    assert LostBytesBelow(h, i) == LostBytes(h) by {
      if n == 0 {
        assert LostBytesBelow(h, 1) == Contribution(h, 0) == 0;
      }
    }

    blocks := [];
    i := 1;
    while i < n
      invariant 1 <= i <= Max(n, 1)
      invariant blocks == LostIdsBelow(h, i)
    {
      var freed, _ := ScanBlock(h[i]);
      if !freed {
        blocks := blocks + [i];
      }
      i := i + 1;
    }
    LostIdsBelowMembers(h, i);
    LostIdsBelowAscending(h, i);
  }

  /** Every block's contribution is part of the unbounded total below any
      bound past it (the reported total, taken modulo 2^64, can be smaller). */
  lemma {:induction false} ContributionWithinTotal(h: seq<seq<Entry>>, i: nat, n: nat)
    requires i < n
    ensures Contribution(h, i) <= LostBytesBelow(h, n)
    decreases n
  {
    if i < n - 1 {
      ContributionWithinTotal(h, i, n - 1);
    }
  }

  /** Changing one history changes the lost total by that block's change in
      contribution and nothing else. */
  lemma {:induction false} LostBytesPointChange(h: seq<seq<Entry>>, h': seq<seq<Entry>>, id: nat, n: nat)
    requires |h| == |h'| && n <= |h|
    requires forall i :: 0 <= i < |h| && i != id ==> h'[i] == h[i]
    ensures id < n ==> LostBytesBelow(h', n) + Contribution(h, id) == LostBytesBelow(h, n) + Contribution(h', id)
    ensures id >= n ==> LostBytesBelow(h', n) == LostBytesBelow(h, n)
    decreases n
  {
    if n > 0 {
      LostBytesPointChange(h, h', id, n - 1);
      if n - 1 != id {
        assert Contribution(h', n - 1) == Contribution(h, n - 1);
      }
    }
  }

  /** Opening a new history leaves the contributions of the existing ones alone. */
  lemma {:induction false} LostBytesAppend(h: seq<seq<Entry>>, b: seq<Entry>, n: nat)
    requires n <= |h|
    ensures LostBytesBelow(h + [b], n) == LostBytesBelow(h, n)
    decreases n
  {
    if n > 0 {
      LostBytesAppend(h, b, n - 1);
      assert (h + [b])[n - 1] == h[n - 1];
    }
  }

  /** A successful malloc adds its new block to the lost set, at the size it
      asked for; a failed one changes nothing the leak pass sees. */
  lemma MallocLeaksNewBlock(s: CheckerStatus, ptr: Addr, size: Size, site: Site)
    requires Valid(s)
    ensures var s' := RecordMalloc(s, ptr, size, site);
              && LostSet(s'.entryLookup) == LostSet(s.entryLookup) + (if ptr != Null then {s.idCounter} else {})
              && LostBytes(s'.entryLookup) == LostBytes(s.entryLookup) + (if ptr != Null then size else 0)
  {
    var s' := RecordMalloc(s, ptr, size, site);
    var h, h' := s.entryLookup, s'.entryLookup;
    if ptr == Null {
      LostBytesPointChange(h, h', 0, |h|);
      assert forall i :: 1 <= i < |h| ==> h'[i] == h[i];
      assert LostSet(h') == LostSet(h);
    } else {
      var e := Entry(s.idCounter, Alloc, ptr, size, site);
      assert h' == h + [[e]];
      LostBytesAppend(h, [e], |h|);
      assert !Freed([e]);
      assert forall i :: 0 <= i < |h| ==> h'[i] == h[i];
      assert LostSet(h') == LostSet(h) + {s.idCounter};
    }
  }

  /** A realloc never adds or removes a lost block; a lost block it resizes
      then counts at the new size, whether that is larger or smaller. */
  lemma ReallocKeepsLostSet(s: CheckerStatus, ptr: Addr, newPtr: Addr, size: Size, site: Site)
    requires Valid(s)
    ensures var s' := RecordRealloc(s, ptr, newPtr, size, site);
            var id := FindId(s.pointers, ptr);
              && LostSet(s'.entryLookup) == LostSet(s.entryLookup)
              && (IsLost(s.entryLookup, id) ==>
                    LastSize(s'.entryLookup[id]) == size
                    && LostBytes(s'.entryLookup) + LastSize(s.entryLookup[id]) == LostBytes(s.entryLookup) + size)
              && (!IsLost(s.entryLookup, id) ==> LostBytes(s'.entryLookup) == LostBytes(s.entryLookup))
  {
    var s' := RecordRealloc(s, ptr, newPtr, size, site);
    var h, h' := s.entryLookup, s'.entryLookup;
    var id := FindId(s.pointers, ptr);
    var e := Entry(id, Realloc, newPtr, size, site);
    assert h'[id] == h[id] + [e];
    assert Freed(h'[id]) == Freed(h[id]) by {
      if Freed(h'[id]) {
        var j :| 0 <= j < |h'[id]| && h'[id][j].kind == Free;
        assert h[id][j] == h'[id][j];
      }
      if Freed(h[id]) {
        var j :| 0 <= j < |h[id]| && h[id][j].kind == Free;
        assert h'[id][j] == h[id][j];
      }
    }
    LostBytesPointChange(h, h', id, |h|);
    assert forall i :: 0 <= i < |h| ==> (IsLost(h', i) <==> IsLost(h, i));
  }

  /** A free takes exactly the block its address resolves to out of the lost
      set (nothing, when that is bucket 0) and its size out of the total. */
  lemma FreeReleasesResolvedBlock(s: CheckerStatus, ptr: Addr, site: Site)
    requires Valid(s)
    ensures var s' := RecordFree(s, ptr, site);
            var id := FindId(s.pointers, ptr);
              && LostSet(s'.entryLookup) == LostSet(s.entryLookup) - {id}
              && LostBytes(s'.entryLookup) + Contribution(s.entryLookup, id) == LostBytes(s.entryLookup)
  {
    var s' := RecordFree(s, ptr, site);
    var h, h' := s.entryLookup, s'.entryLookup;
    var id := FindId(s.pointers, ptr);
    var e := Entry(id, Free, ptr, 0, site);
    assert h'[id] == h[id] + [e];
    assert h'[id][|h[id]|].kind == Free;
    assert Freed(h'[id]);
    LostBytesPointChange(h, h', id, |h|);
    assert Contribution(h', id) == 0;
  }
}

=== FILE: scenarios.dfy ===
/** Call sequences worked through the ledger, with the leak pass's verdict
    on each. Addresses are parameters standing for whatever distinct
    non-NULL values the real allocator returned. */
module Scenarios {
  import opened Common
  import opened Entries
  import opened AllocCheck
  import opened LostBlocks

  /** What a state shows to later lookups and to the leak pass: its address
      table, its lost set and its lost total. */
  predicate Shows(s: CheckerStatus, pointers: seq<Addr>, lost: set<nat>, bytes: nat) {
    s.pointers == pointers && LostSet(s.entryLookup) == lost && LostBytes(s.entryLookup) == bytes
  }

  /** Intercepting one more call applies one more ledger step. */
  lemma RunSnoc(calls: seq<Call>, c: Call)
    ensures InitChecker(Run(Uninitialized, calls + [c])) == Step(InitChecker(Run(Uninitialized, calls)), c)
  {
    assert (calls + [c])[..|calls|] == calls;
  }

  /** The first intercepted call initialises the ledger and records itself. */
  lemma RunOne(c: Call)
    ensures InitChecker(Run(Uninitialized, [c])) == Step(InitialStatus(), c)
  {
    assert [] + [c] == [c];
    RunSnoc([], c);
  }

  /** A fresh ledger shows only the NULL slot and nothing lost. */
  lemma InitialShowsNothing()
    ensures Valid(InitialStatus()) && Shows(InitialStatus(), [Null], {}, 0)
  {
    var h := InitialStatus().entryLookup;
    assert forall i: nat :: i < |h| ==> !IsLost(h, i);
  }

  /** A satisfied malloc takes the next slot and adds a lost block of its size. */
  lemma ShowsMalloc(s: CheckerStatus, ptr: Addr, size: Size, site: Site, ps: seq<Addr>, lost: set<nat>, bytes: nat)
    requires Valid(s) && Shows(s, ps, lost, bytes) && ptr != Null
    ensures Shows(Step(s, MallocCall(ptr, size, site)), ps + [ptr], lost + {|ps|}, bytes + size)
    ensures LastSize(Step(s, MallocCall(ptr, size, site)).entryLookup[|ps|]) == size
  {
    assert Step(s, MallocCall(ptr, size, site)) == RecordMalloc(s, ptr, size, site);
    MallocLeaksNewBlock(s, ptr, size, site);
  }

  /** A free releases the block its address resolves to, if that is lost. */
  lemma ShowsFree(s: CheckerStatus, ptr: Addr, site: Site, ps: seq<Addr>, lost: set<nat>, bytes: nat, id: nat)
    requires Valid(s) && Shows(s, ps, lost, bytes) && FindId(ps, ptr) == id
    ensures id !in lost ==> Shows(Step(s, FreeCall(ptr, site)), ps, lost, bytes)
    ensures id in lost ==> LastSize(s.entryLookup[id]) <= bytes
    ensures id in lost ==> Shows(Step(s, FreeCall(ptr, site)), ps, lost - {id}, bytes - LastSize(s.entryLookup[id]))
  {
    assert Step(s, FreeCall(ptr, site)) == RecordFree(s, ptr, site);
    FreeReleasesResolvedBlock(s, ptr, site);
    if id in lost {
      ContributionWithinTotal(s.entryLookup, id, |s.entryLookup|);
    }
  }

  /** A realloc of a lost block overwrites its slot and re-sizes it. */
  lemma ShowsRealloc(s: CheckerStatus, ptr: Addr, newPtr: Addr, size: Size, site: Site,
                     ps: seq<Addr>, lost: set<nat>, bytes: nat, id: nat)
    requires Valid(s) && Shows(s, ps, lost, bytes) && FindId(ps, ptr) == id && id in lost
    ensures LastSize(s.entryLookup[id]) <= bytes
    ensures LastSize(Step(s, ReallocCall(ptr, newPtr, size, site)).entryLookup[id]) == size
    ensures Shows(Step(s, ReallocCall(ptr, newPtr, size, site)), ps[id := newPtr], lost,
                  bytes - LastSize(s.entryLookup[id]) + size)
  {
    var s' := RecordRealloc(s, ptr, newPtr, size, site);
    assert Step(s, ReallocCall(ptr, newPtr, size, site)) == s';
    ReallocKeepsLostSet(s, ptr, newPtr, size, site);
    ContributionWithinTotal(s.entryLookup, id, |s.entryLookup|);
    assert s'.pointers == ps[id := newPtr];
  }

  /** The id the next malloc mints is not lost yet. */
  lemma NewIdNotLost(s: CheckerStatus, ps: seq<Addr>, lost: set<nat>, bytes: nat)
    requires Valid(s) && Shows(s, ps, lost, bytes)
    ensures |ps| !in lost && lost + {|ps|} - {|ps|} == lost
  {
    assert forall x :: x in LostSet(s.entryLookup) ==> x < |s.entryLookup|;
  }

  /** A block allocated at an address no slot holds and then freed once
      never reaches the leak pass: the lost set and total are as before. */
  lemma AllocThenFreeNotLost(s: CheckerStatus, a: Addr, size: Size, site: Site,
                             ps: seq<Addr>, lost: set<nat>, bytes: nat)
    requires Valid(s) && Shows(s, ps, lost, bytes) && a != Null && a !in ps
    ensures Shows(Step(Step(s, MallocCall(a, size, site)), FreeCall(a, site)), ps + [a], lost, bytes)
  {
    NewIdNotLost(s, ps, lost, bytes);
    FindIdIsFirst(ps + [a], a, |ps|);
    ShowsMalloc(s, a, size, site, ps, lost, bytes);
    ShowsFree(Step(s, MallocCall(a, size, site)), a, site, ps + [a], lost + {|ps|}, bytes + size, |ps|);
  }

  /** Two satisfied mallocs in a row: both new blocks are lost until freed. */
  lemma TwoMallocsLeak(s: CheckerStatus, b: Addr, n: Size, c: Addr, m: Size, site: Site,
                       ps: seq<Addr>, lost: set<nat>, bytes: nat)
    requires Valid(s) && Shows(s, ps, lost, bytes) && b != Null && c != Null
    ensures var s' := Step(Step(s, MallocCall(b, n, site)), MallocCall(c, m, site));
              && Shows(s', ps + [b, c], lost + {|ps|, |ps| + 1}, bytes + n + m)
              && LastSize(s'.entryLookup[|ps| + 1]) == m
  {
    assert ps + [b] + [c] == ps + [b, c];
    assert lost + {|ps|} + {|ps| + 1} == lost + {|ps|, |ps| + 1};
    ShowsMalloc(s, b, n, site, ps, lost, bytes);
    ShowsMalloc(Step(s, MallocCall(b, n, site)), c, m, site, ps + [b], lost + {|ps|}, bytes + n);
  }

  /** A block allocated and freed, then two blocks kept: malloc(16) = a;
      free(a); malloc(80) = b; malloc(40) = c. */
  function FreeThenTwoMallocsCalls(a: Addr, b: Addr, c: Addr, site: Site): seq<Call> {
    [MallocCall(a, 16, site)] + [FreeCall(a, site)] + [MallocCall(b, 80, site)] + [MallocCall(c, 40, site)]
  }

  /** The same four calls, then c shrunk to size 0: realloc(c, 0) = d. */
  function ShrinkToZeroCalls(a: Addr, b: Addr, c: Addr, d: Addr, site: Site): seq<Call> {
    FreeThenTwoMallocsCalls(a, b, c, site) + [ReallocCall(c, d, 0, site)]
  }

  /** The ledger after malloc(16) = a, free(a), malloc(80) = b, malloc(40) = c, from `s0`. */
  function FreeThenTwoMallocsState(s0: CheckerStatus, a: Addr, b: Addr, c: Addr, site: Site): (s: CheckerStatus)
    requires Valid(s0)
    ensures Valid(s)
  {
    var s2 := Step(Step(s0, MallocCall(a, 16, site)), FreeCall(a, site));
    Step(Step(s2, MallocCall(b, 80, site)), MallocCall(c, 40, site))
  }

  /** A fresh ledger's first block, allocated and freed, leaves it showing
      one slot more and nothing lost. */
  lemma FirstBlockFreed(s0: CheckerStatus, a: Addr, n: Size, site: Site)
    requires Valid(s0) && Shows(s0, [Null], {}, 0) && a != Null
    ensures Shows(Step(Step(s0, MallocCall(a, n, site)), FreeCall(a, site)), [Null, a], {}, 0)
  {
    assert [Null] + [a] == [Null, a];
    AllocThenFreeNotLost(s0, a, n, site, [Null], {}, 0);
  }

  /** A fresh ledger's first block, allocated and not freed, is lost. */
  lemma FirstBlockKept(s0: CheckerStatus, a: Addr, n: Size, site: Site)
    requires Valid(s0) && Shows(s0, [Null], {}, 0) && a != Null
    ensures Shows(Step(s0, MallocCall(a, n, site)), [Null, a], {1}, n)
    ensures LastSize(Step(s0, MallocCall(a, n, site)).entryLookup[1]) == n
  {
    assert [Null] + [a] == [Null, a];
    assert {} + {1} == {1};
    ShowsMalloc(s0, a, n, site, [Null], {}, 0);
  }

  /** The mallocs of b and c, after a's block came and went. */
  lemma TwoMallocsAfterFreedBlock(s2: CheckerStatus, a: Addr, b: Addr, c: Addr, site: Site)
    requires Valid(s2) && Shows(s2, [Null, a], {}, 0) && b != Null && c != Null
    ensures var s := Step(Step(s2, MallocCall(b, 80, site)), MallocCall(c, 40, site));
              && Shows(s, [Null, a, b, c], {2, 3}, 120)
              && LastSize(s.entryLookup[3]) == 40
  {
    assert [Null, a] + [b, c] == [Null, a, b, c];
    assert {} + {2, 3} == {2, 3};
    TwoMallocsLeak(s2, b, 80, c, 40, site, [Null, a], {}, 0);
  }

  /** After malloc(16) = a, free(a), malloc(80) = b, malloc(40) = c the
      ledger shows b and c lost, 120 bytes in all, c's last size being 40. */
  lemma FreeThenTwoMallocsShows(s0: CheckerStatus, a: Addr, b: Addr, c: Addr, site: Site)
    requires Valid(s0) && Shows(s0, [Null], {}, 0) && a != Null && b != Null && c != Null
    ensures var s := FreeThenTwoMallocsState(s0, a, b, c, site);
              && Shows(s, [Null, a, b, c], {2, 3}, 120)
              && LastSize(s.entryLookup[3]) == 40
  {
    FirstBlockFreed(s0, a, 16, site);
    TwoMallocsAfterFreedBlock(Step(Step(s0, MallocCall(a, 16, site)), FreeCall(a, site)), a, b, c, site);
  }

  /** Running the four calls from a fresh process applies them one by one. */
  lemma FreeThenTwoMallocsRuns(a: Addr, b: Addr, c: Addr, site: Site)
    ensures InitChecker(Run(Uninitialized, FreeThenTwoMallocsCalls(a, b, c, site)))
              == FreeThenTwoMallocsState(InitialStatus(), a, b, c, site)
  {
    var c0, c1, c2, c3 := MallocCall(a, 16, site), FreeCall(a, site), MallocCall(b, 80, site), MallocCall(c, 40, site);
    RunOne(c0);
    RunSnoc([c0], c1);
    RunSnoc([c0] + [c1], c2);
    RunSnoc([c0] + [c1] + [c2], c3);
  }

  /** Running the five calls from a fresh process ends with the realloc to size 0. */
  lemma ShrinkToZeroRuns(a: Addr, b: Addr, c: Addr, d: Addr, site: Site)
    ensures InitChecker(Run(Uninitialized, ShrinkToZeroCalls(a, b, c, d, site)))
              == Step(FreeThenTwoMallocsState(InitialStatus(), a, b, c, site), ReallocCall(c, d, 0, site))
  {
    FreeThenTwoMallocsRuns(a, b, c, site);
    RunSnoc(FreeThenTwoMallocsCalls(a, b, c, site), ReallocCall(c, d, 0, site));
  }

  /** Running the five calls and then freeing d applies that free last. */
  lemma ShrinkToZeroRunsThenFree(a: Addr, b: Addr, c: Addr, d: Addr, site: Site)
    ensures InitChecker(Run(Uninitialized, ShrinkToZeroCalls(a, b, c, d, site) + [FreeCall(d, site)]))
              == Step(Step(FreeThenTwoMallocsState(InitialStatus(), a, b, c, site), ReallocCall(c, d, 0, site)), FreeCall(d, site))
  {
    ShrinkToZeroRuns(a, b, c, d, site);
    RunSnoc(ShrinkToZeroCalls(a, b, c, d, site), FreeCall(d, site));
  }

  /** realloc(c, 0) returns an address d that is then freed:
      only b stays lost, with its 80 bytes. */
  lemma ShrinkToZeroMovedThenFreedTail(s4: CheckerStatus, a: Addr, b: Addr, c: Addr, d: Addr, site: Site)
    requires Valid(s4) && Shows(s4, [Null, a, b, c], {2, 3}, 120) && LastSize(s4.entryLookup[3]) == 40
    requires c != Null && d != Null && c != a && c != b && d != a && d != b
    ensures Shows(Step(Step(s4, ReallocCall(c, d, 0, site)), FreeCall(d, site)), [Null, a, b, d], {2}, 80)
  {
    assert [Null, a, b, c][3 := d] == [Null, a, b, d];
    assert {2, 3} - {3} == {2};
    FindIdIsFirst([Null, a, b, c], c, 3);
    FindIdIsFirst([Null, a, b, d], d, 3);
    ShowsRealloc(s4, c, d, 0, site, [Null, a, b, c], {2, 3}, 120, 3);
    var s5 := Step(s4, ReallocCall(c, d, 0, site));
    ShowsFree(s5, d, site, [Null, a, b, d], {2, 3}, 80, 3);
  }

  /** malloc(16) = a, free(a), malloc(80) = b, malloc(40) = c, then
      realloc(c, 0) returning an address d that is then
      freed: the leak pass reports block b alone, holding 80 bytes. */
  lemma ShrinkToZeroMovedThenFreedLeaksOne(a: Addr, b: Addr, c: Addr, d: Addr, site: Site)
    requires a != Null && b != Null && c != Null && d != Null
    requires a != b && a != c && b != c && d != a && d != b
    ensures var s := InitChecker(Run(Uninitialized, ShrinkToZeroCalls(a, b, c, d, site) + [FreeCall(d, site)]));
              LostSet(s.entryLookup) == {2} && LostBytes(s.entryLookup) == 80
  {
    var s0 := InitialStatus();
    InitialShowsNothing();
    ShrinkToZeroRunsThenFree(a, b, c, d, site);
    FreeThenTwoMallocsShows(s0, a, b, c, site);
    ShrinkToZeroMovedThenFreedTail(FreeThenTwoMallocsState(s0, a, b, c, site), a, b, c, d, site);
  }

  /** realloc(c, 0) returns a's old address, which is then freed: the
      free resolves to a's stale id 1, so b and c both stay lost. */
  lemma ShrinkToZeroMovedToFreedAddressTail(s4: CheckerStatus, a: Addr, b: Addr, c: Addr, site: Site)
    requires Valid(s4) && Shows(s4, [Null, a, b, c], {2, 3}, 120) && LastSize(s4.entryLookup[3]) == 40
    requires a != Null && c != Null && c != a && c != b
    ensures Shows(Step(Step(s4, ReallocCall(c, a, 0, site)), FreeCall(a, site)), [Null, a, b, a], {2, 3}, 80)
  {
    assert [Null, a, b, c][3 := a] == [Null, a, b, a];
    FindIdIsFirst([Null, a, b, c], c, 3);
    FindIdIsFirst([Null, a, b, a], a, 1);
    ShowsRealloc(s4, c, a, 0, site, [Null, a, b, c], {2, 3}, 120, 3);
    var s5 := Step(s4, ReallocCall(c, a, 0, site));
    ShowsFree(s5, a, site, [Null, a, b, a], {2, 3}, 80, 1);
  }

  /** malloc(16) = a, free(a), malloc(80) = b, malloc(40) = c, then
      realloc(c, 0) handing back a's freed address, which is then freed:
      the free lands on a's stale id, and the leak pass reports b and c,
      holding 80 bytes. */
  lemma ShrinkToZeroMovedToFreedAddressLeaksTwo(a: Addr, b: Addr, c: Addr, site: Site)
    requires a != Null && b != Null && c != Null && a != b && a != c && b != c
    ensures var s := InitChecker(Run(Uninitialized, ShrinkToZeroCalls(a, b, c, a, site) + [FreeCall(a, site)]));
              && LostSet(s.entryLookup) == {2, 3} && LostBytes(s.entryLookup) == 80
              && s.pointers == [Null, a, b, a]
  {
    var s0 := InitialStatus();
    InitialShowsNothing();
    ShrinkToZeroRunsThenFree(a, b, c, a, site);
    FreeThenTwoMallocsShows(s0, a, b, c, site);
    ShrinkToZeroMovedToFreedAddressTail(FreeThenTwoMallocsState(s0, a, b, c, site), a, b, c, site);
  }

  /** realloc(c, 0) returns NULL: the slot of c is
      overwritten with NULL and c stays lost, now at size 0. */
  lemma ShrinkToZeroNullTail(s4: CheckerStatus, a: Addr, b: Addr, c: Addr, site: Site)
    requires Valid(s4) && Shows(s4, [Null, a, b, c], {2, 3}, 120) && LastSize(s4.entryLookup[3]) == 40
    requires c != Null && c != a && c != b
    ensures Shows(Step(s4, ReallocCall(c, Null, 0, site)), [Null, a, b, Null], {2, 3}, 80)
  {
    assert [Null, a, b, c][3 := Null] == [Null, a, b, Null];
    FindIdIsFirst([Null, a, b, c], c, 3);
    ShowsRealloc(s4, c, Null, 0, site, [Null, a, b, c], {2, 3}, 120, 3);
  }

  /** malloc(16) = a, free(a), malloc(80) = b, malloc(40) = c, then
      realloc(c, 0) returning NULL: the leak pass reports
      two blocks, b and c, holding 80 bytes, and c's slot holds NULL. */
  lemma ShrinkToZeroNullLeaksTwo(a: Addr, b: Addr, c: Addr, site: Site)
    requires a != Null && b != Null && c != Null && a != b && a != c && b != c
    ensures var s := InitChecker(Run(Uninitialized, ShrinkToZeroCalls(a, b, c, Null, site)));
              && LostSet(s.entryLookup) == {2, 3} && LostBytes(s.entryLookup) == 80
              && s.pointers == [Null, a, b, Null]
  {
    var s0 := InitialStatus();
    InitialShowsNothing();
    ShrinkToZeroRuns(a, b, c, Null, site);
    FreeThenTwoMallocsShows(s0, a, b, c, site);
    ShrinkToZeroNullTail(FreeThenTwoMallocsState(s0, a, b, c, site), a, b, c, site);
  }

  /** After a block at `a` was freed, the allocator hands `a` out again:
      a new block is minted for it behind the stale slot. */
  lemma ReusedMalloc(s2: CheckerStatus, a: Addr, n2: Size, site: Site)
    requires Valid(s2) && Shows(s2, [Null, a], {}, 0) && a != Null
    ensures Shows(Step(s2, MallocCall(a, n2, site)), [Null, a, a], {2}, n2)
  {
    assert [Null, a] + [a] == [Null, a, a];
    assert {} + {2} == {2};
    ShowsMalloc(s2, a, n2, site, [Null, a], {}, 0);
  }

  /** Freeing the reused address resolves to the first, stale id, which is
      no longer lost, so the new block stays lost. */
  lemma ReusedFree(s3: CheckerStatus, a: Addr, n2: Size, site: Site)
    requires Valid(s3) && Shows(s3, [Null, a, a], {2}, n2) && a != Null
    ensures Shows(Step(s3, FreeCall(a, site)), [Null, a, a], {2}, n2)
  {
    FindIdIsFirst([Null, a, a], a, 1);
    ShowsFree(s3, a, site, [Null, a, a], {2}, n2, 1);
  }

  /** The calls of the reused-address scenario: malloc(n1) = a; free(a);
      malloc(n2) = a again; free(a). */
  function ReusedCalls(a: Addr, n1: Size, n2: Size, site: Site): seq<Call> {
    [MallocCall(a, n1, site)] + [FreeCall(a, site)] + [MallocCall(a, n2, site)] + [FreeCall(a, site)]
  }

  /** Running the reused-address scenario applies its calls one by one. */
  lemma ReusedRuns(a: Addr, n1: Size, n2: Size, site: Site)
    ensures var s2 := Step(Step(InitialStatus(), MallocCall(a, n1, site)), FreeCall(a, site));
              InitChecker(Run(Uninitialized, ReusedCalls(a, n1, n2, site)))
                == Step(Step(s2, MallocCall(a, n2, site)), FreeCall(a, site))
  {
    var c0, c1, c2, c3 := MallocCall(a, n1, site), FreeCall(a, site), MallocCall(a, n2, site), FreeCall(a, site);
    RunOne(c0);
    RunSnoc([c0], c1);
    RunSnoc([c0] + [c1], c2);
    RunSnoc([c0] + [c1] + [c2], c3);
  }

  /** The allocator hands a freed address out again and the program frees
      it again: both frees resolve to the first, stale id, so the second
      block is reported lost although every block was freed. */
  lemma ReusedAddressReportsFalseLeak(a: Addr, n1: Size, n2: Size, site: Site)
    requires a != Null
    ensures var s := InitChecker(Run(Uninitialized, ReusedCalls(a, n1, n2, site)));
              LostSet(s.entryLookup) == {2} && LostBytes(s.entryLookup) == n2
  {
    ReusedRuns(a, n1, n2, site);
    var s0 := InitialStatus();
    InitialShowsNothing();
    FirstBlockFreed(s0, a, n1, site);
    var s2 := Step(Step(s0, MallocCall(a, n1, site)), FreeCall(a, site));
    ReusedMalloc(s2, a, n2, site);
    ReusedFree(Step(s2, MallocCall(a, n2, site)), a, n2, site);
  }

  /** A realloc of `a` returns NULL, then `a` is freed: the free finds no
      slot holding `a` and lands in bucket 0. */
  lemma FailedReallocTail(s1: CheckerStatus, a: Addr, n: Size, m: Size, site: Site)
    requires Valid(s1) && Shows(s1, [Null, a], {1}, n) && LastSize(s1.entryLookup[1]) == n && a != Null
    ensures Shows(Step(Step(s1, ReallocCall(a, Null, m, site)), FreeCall(a, site)), [Null, Null], {1}, m)
  {
    assert [Null, a][1 := Null] == [Null, Null];
    assert FindId([Null, Null], a) == 0;
    FindIdIsFirst([Null, a], a, 1);
    ShowsRealloc(s1, a, Null, m, site, [Null, a], {1}, n, 1);
    ShowsFree(Step(s1, ReallocCall(a, Null, m, site)), a, site, [Null, Null], {1}, m, 0);
  }

  /** The calls of the failed-realloc scenario: malloc(n) = a;
      realloc(a, m) = NULL; free(a). */
  function FailedReallocCalls(a: Addr, n: Size, m: Size, site: Site): seq<Call> {
    [MallocCall(a, n, site)] + [ReallocCall(a, Null, m, site)] + [FreeCall(a, site)]
  }

  /** Running the failed-realloc scenario applies its calls one by one. */
  lemma FailedReallocRuns(a: Addr, n: Size, m: Size, site: Site)
    ensures InitChecker(Run(Uninitialized, FailedReallocCalls(a, n, m, site)))
              == Step(Step(Step(InitialStatus(), MallocCall(a, n, site)), ReallocCall(a, Null, m, site)), FreeCall(a, site))
  {
    var c0, c1, c2 := MallocCall(a, n, site), ReallocCall(a, Null, m, site), FreeCall(a, site);
    RunOne(c0);
    RunSnoc([c0], c1);
    RunSnoc([c0] + [c1], c2);
  }

  /** A realloc that returns NULL still overwrites the block's slot, so
      freeing the original address lands in bucket 0 and the block is
      reported lost at the size the realloc asked for. */
  lemma FailedReallocThenFreeReportsLeak(a: Addr, n: Size, m: Size, site: Site)
    requires a != Null
    ensures var s := InitChecker(Run(Uninitialized, FailedReallocCalls(a, n, m, site)));
              LostSet(s.entryLookup) == {1} && LostBytes(s.entryLookup) == m
  {
    FailedReallocRuns(a, n, m, site);
    var s0 := InitialStatus();
    InitialShowsNothing();
    FirstBlockKept(s0, a, n, site);
    FailedReallocTail(Step(s0, MallocCall(a, n, site)), a, n, m, site);
  }
}
